=== FILE: README.md ===
# tsg-cli reconciler, modelled in Dafny

This project models the Triton Service Groups (TSG) agent of tsg-cli. The agent keeps a group of Triton compute instances at a configured size.

**One pass.** `MaintainInstanceCount` runs one reconciliation pass:

1. It lists the group's instances, filtered by the `tsg.name` tag when the group has a name.
2. It sorts the list newest first, by creation second.
3. It compares the running count with the configured count and then does one of three things:
   - it deletes instances from the oldest end of the list;
   - or it creates instances from the configured template, naming each new one with a `name` tag of the form `tsg-<template prefix>-<instance prefix>`;
   - or it does nothing.

The pass stops at the first failing call and returns that call's error. It does not undo what it has already done.

**Configuration.** The create request is assembled from the agent's configuration getters:
- `key=value` tag lists, parsed with `strings.Split` on `=`;
- base64-encoded metadata entries;
- base64-encoded userdata;
- network lists;
- affinity-rule lists.

The configured tags and metadata are merged under the defaults with mergo's non-overriding merge.

The model is purely functional.

**The compute API.**
- The API is a `Directory` value holding the reply to the list call and the reply to the k-th Create, AddTags and Delete call.
- A pass is a function from the settings, the configured count and the directory to a `Run`.
- A `Run` holds three things:
  - the calls made, in order;
  - the group's instances when the pass stops, assuming a failed call changed nothing (none after a failed list call, since the pass then knows of no instance);
  - the pass's outcome.

**Panics.** Go runtime panics are modelled as the fault `IndexOutOfRange`, so they are part of the pass rather than excluded by a precondition. Two of the pass's panics are modelled this way:
- `templateID[:8]` or `instanceID[:8]` on an id shorter than eight characters;
- `instances[len(instances)-1]` once the list is empty, which a negative configured count reaches.

**Base64.** Decoding is a parameter, `Decoder`: a partial function from text to text.

Modules:

| file | module | covers |
|---|---|---|
| `outcomes.dfy` | `Outcomes` | `Option`, `Result` and `Outcome` wrappers |
| `strings.dfy` | `Strings` | `strings.Split` / `strings.Join` on one separator |
| `config.dfy` | `Config` | the configuration getters and their resolution into `Settings` |
| `instances.dfy` | `Instances` | instances, `Unix()` seconds, the newest-first sort |
| `requests.dfy` | `Requests` | the list filter, the name tag, the tag request, mergo's merge, the create request |
| `scale.dfy` | `Scale` | the scale-down and scale-up loops, the pass, and the pass from raw configuration |
| `pass_properties.dfy` | `PassProperties` | where the loops stop, oldest-first deletion, convergence, worked examples |

**Where the code is followed.** `CreateInstance` in cmd/agent/scale/public.go (lines 185 and 214) uses `config.GetMachineUserdata()` and `config.GetMachineMetadata()` as if each returned one value. In cmd/config/public.go both return a value and an error.

The model follows the getters as written, with their error results. A decoding error returned where `CreateInstance` reads the value ends the pass with the fault `BadConfig`. `Scale.ScaleGroup` models this:
- such an error can only stop a pass that has to create instances;
- it stops that pass after the list call and before the first Create;
- a pass that deletes instances or does nothing does not depend on the decoded values.

`Config.Resolve` gathers the getters' results into the settings the create request is built from.

## Model

| member | source | states |
|---|---|---|
| `Strings.Split` | cmd/config/public.go:174 | `strings.Split` on one separator yields at least one piece, no piece contains the separator, and joining the pieces with it gives back the input |
| `Strings.SplitJoin` | cmd/config/public.go:174 | round trip: splitting a join of separator-free pieces returns exactly those pieces |
| `Config.ParseEntry` | cmd/config/public.go:174-175 | `m[0]`/`m[1]` of an entry holding a `=` are its text before the first `=` and the text between the first and the second `=`; neither contains `=` |
| `Config.ParseEntryOf` | cmd/config/public.go:174-175 | round trip: `key=value` (optionally followed by `=`-led text) parses back to that key and value when neither contains `=` |
| `Config.PairsToMap` | cmd/config/public.go:173-176 | assigning the pairs in order gives a map whose keys are exactly the pairs' keys, each bound to the value of the last pair with that key |
| `Config.GetMachineTags` | cmd/config/public.go:169-182 | nil exactly when the key is unset; otherwise the keys are the entries' keys and each key maps to the value of its last entry |
| `Config.LaterTagWins` | cmd/config/public.go:173-176 | of two later entries with the same key, the map holds the second one's value and otherwise equals the map of the earlier entries |
| `Config.DecodeAll` | cmd/config/public.go:187-192 | decoding succeeds exactly when every entry decodes, position by position; otherwise the error names the first undecodable entry |
| `Config.GetMachineMetadata` | cmd/config/public.go:184-200 | nil without error when unset; an error exactly when some entry is not base64, naming the first such entry; otherwise the map the decoded entries build, as tags are built |
| `Config.GetMachineUserdata` | cmd/config/public.go:202-210 | the decoded userdata exactly when it is valid base64, else the decoding error |
| `Config.AppendAll` | cmd/config/public.go:145-149 | appending nothing leaves a nil slice nil; appending a non-empty list yields the old elements followed by that list |
| `Config.GetMachineNetworks` | cmd/config/public.go:143-154 | nil exactly when the key is unset or empty, otherwise the configured networks in order |
| `Config.GetMachineAffinityRules` | cmd/config/public.go:156-167 | nil exactly when the key is unset or empty, otherwise the configured rules in order |
| `Config.Resolve` | cmd/agent/scale/public.go:176-231 | the settings CreateInstance reads are obtained exactly when userdata and metadata both decode; a userdata error is returned as is; with valid userdata, a metadata error is returned as is; each field is the corresponding getter's result |
| `Instances.Insert` | cmd/agent/scale/public.go:243-246 | inserting into a newest-first list keeps it newest-first and adds exactly that one instance |
| `Instances.SortNewestFirst` | cmd/agent/scale/public.go:241-261 | the sorted list is a permutation of the listed instances, non-increasing in creation second: no instance is `Older` than one after it, where `Instances.Older` is `instanceSort.Less`, `a` created in an earlier whole second than `b` |
| `Instances.TailIsOldest` | cmd/agent/scale/public.go:257-261 | in a newest-first list no instance of a suffix is newer than any instance before it |
| `Instances.SortedSecondsUnique` | cmd/agent/scale/public.go:243-261 | any two newest-first orders of the same instances agree on the creation second at every position: the unstable sort can only permute same-second instances |
| `Requests.ListFilter` | cmd/agent/scale/public.go:149-159 | the list filter is empty exactly for an unnamed group, otherwise exactly `tsg.name` bound to the group name |
| `Requests.NameTag` | cmd/agent/scale/public.go:145-147 | a name tag is always 21 characters long |
| `Requests.NameTagLayout` | cmd/agent/scale/public.go:145-147 | the tag is `tsg-`, the first 8 characters of the template id, `-`, the first 8 characters of the instance id |
| `Requests.NameTagDeterminedByPrefixes` | cmd/agent/scale/public.go:145-147 | two name tags are equal if and only if both ids agree on their first 8 characters |
| `Requests.NameTagExample` | cmd/agent/scale/public.go:145-147 | template `abcdefgh1234` and instance `zzzzzzzz9999` give `tsg-abcdefgh-zzzzzzzz` |
| `Requests.TagInstance` | cmd/agent/scale/public.go:127-143 | the AddTags request targets the new instance and carries exactly one tag, `name`, its name tag |
| `Requests.MergeKeep` | cmd/agent/scale/public.go:205-217 | mergo without override: the keys are the union; a destination entry is kept unless it is empty and the source has the key; a source value fills a missing or empty destination entry |
| `Requests.MergeKeepIdempotent` | cmd/agent/scale/public.go:205-217 | merging the same configured map a second time changes nothing |
| `Requests.DefaultTags` | cmd/agent/scale/public.go:182-193 | the defaults are `tsg.template` bound to the template id and, for a named group, `tsg.name` bound to the group name, and nothing else |
| `Requests.DefaultMetadata` | cmd/agent/scale/public.go:181-188 | the default metadata is `user-data` for non-empty userdata and empty otherwise |
| `Requests.RequestTags` | cmd/agent/scale/public.go:181-212 | the request's tags are the defaults plus the configured keys; a non-empty default is never overridden; `tsg.template` is the template id unless that id is empty and a configured tag fills it; every other configured tag is carried as configured |
| `Requests.RequestMetadata` | cmd/agent/scale/public.go:181-221 | metadata is set exactly when userdata or configured metadata is non-empty; `user-data` wins; every other configured entry is carried |
| `Requests.BuildCreateRequest` | cmd/agent/scale/public.go:176-232 | the create request carries the firewall flag, the merged tags and metadata, and each optional field exactly when its configured value is non-empty |
| `Requests.GroupTagNotOverridden` | cmd/agent/scale/public.go:190-208 | example: for group `g` with the configured tag `tsg.name=override`, the request's `tsg.name` tag stays `g` |
| `Requests.CreatedInstancesMatchFilter` | cmd/agent/scale/public.go:152-193 | every tag the list filter requires is carried, with the same value, by the create request, so created instances are counted by the next pass |
| `Scale.DeleteTail` | cmd/agent/scale/public.go:47-73 | the j-th delete targets the j-th instance from the tail; survivors are a prefix; success exactly when there are enough instances and every delete succeeds, then exactly `remaining` deletes |
| `Scale.ScaleDown` | cmd/agent/scale/public.go:47-73 | deletes go from the tail and the survivors are a prefix; at most one delete more is sent than took effect; scale-down succeeds exactly when the target is non-negative and the first `running - expected` deletes succeed, leaving `expected` instances |
| `Scale.UpIteration` | cmd/agent/scale/public.go:76-112 | an iteration names its instance exactly when the Create succeeds, both ids are long enough and AddTags succeeds; a failed Create sends only the Create, keeps nothing and returns its error; a short template or instance id panics with `IndexOutOfRange` after the Create alone; a failed AddTags follows the Create and returns its error; a stopped iteration keeps its created instance |
| `Scale.CreateTagged` | cmd/agent/scale/public.go:75-113 | the loop succeeds exactly when every iteration completes, then with exactly `remaining` new instances and two calls each; the instances kept are those the Creates returned |
| `Scale.ScaleUp` | cmd/agent/scale/public.go:75-113 | scale-up keeps the listed instances in front, succeeds exactly when every iteration completes, and then holds `expected` instances |
| `Scale.Reconcile` | cmd/agent/scale/public.go:43-124 | the pass after the list: no call at the target count, scale-down below it, scale-up above it; success with a non-negative target leaves exactly the target count |
| `Scale.MaintainInstanceCount` | cmd/agent/scale/public.go:37-125 | the first call is the filtered list; a list error ends the pass with that error alone; a group at its count makes no further call |
| `Scale.ScaleGroup` | cmd/agent/scale/public.go:176-239 | with valid configuration, the pass on the resolved settings; a decoding error stops only a pass that must create instances, right after the list call; any other pass is the same for every configuration of the group |
| `PassProperties.DeleteTailStopsAtFailure` | cmd/agent/scale/public.go:49-62 | fail fast: when the f-th delete is the first to fail, f+1 deletes are sent, the f before it took effect, and its error is returned |
| `PassProperties.DeleteTailExhausts` | cmd/agent/scale/public.go:47-50 | with more deletes to make than instances and all succeeding, the list empties and the pass then panics on the index |
| `PassProperties.ReconcileScaleDownStops` | cmd/agent/scale/public.go:43-62 | scaling down to a non-negative count when the f-th delete is the first to fail: f+1 calls, the last one that delete of the (f+1)-th instance from the tail; the f instances before it removed; that delete's error returned |
| `PassProperties.NegativeCountPanics` | cmd/agent/scale/public.go:43-50 | a negative configured count deletes every listed instance and still ends in the index panic |
| `PassProperties.DeletesOldestFirst` | cmd/agent/scale/public.go:47-73 | on a newest-first list, deletes go from the oldest end, the instances kept are a prefix of the list, and every deleted instance is no newer than any instance before it nor than any instance kept |
| `PassProperties.PassDeletesOldest` | cmd/agent/scale/public.go:37-73 | a pass that scales down keeps only listed instances, and every Delete after the list call names a listed instance that no instance kept is older than |
| `PassProperties.Completed` | cmd/agent/scale/public.go:76-112 | completed iterations return one instance per iteration, each the reply of its Create, each taggable |
| `PassProperties.CreateTaggedCompletes` | cmd/agent/scale/public.go:75-113 | when every iteration completes, the calls are exactly one Create and one AddTags (with that instance's name tag) per instance |
| `PassProperties.CreateTaggedStops` | cmd/agent/scale/public.go:75-102 | at the first incomplete iteration the loop stops: earlier pairs, then that iteration's calls; earlier instances and its own are kept; its fault is returned |
| `PassProperties.CreateFailureStops` | cmd/agent/scale/public.go:80-90 | a failed Create ends the pass with its error after the earlier pairs; nothing is tagged for it |
| `PassProperties.TagFailureKeepsInstance` | cmd/agent/scale/public.go:92-102 | a failed AddTags ends the pass with its error; the instance it was for stays in the group, unnamed |
| `PassProperties.ShortIdPanics` | cmd/agent/scale/public.go:80-92 | an id shorter than 8 characters panics after the Create: the instance stays, no AddTags is sent |
| `PassProperties.ScaleUpStops` | cmd/agent/scale/public.go:75-113 | scale-up whose stop-th iteration is the first not to complete: the completed pairs and then that iteration's calls; the listed instances followed by every instance created so far, including the stopping one's; its fault returned |
| `PassProperties.ReconcileConverges` | cmd/agent/scale/public.go:43-124 | a successful reconciliation to a non-negative count leaves that many instances, with as many creates or deletes as the counts differ |
| `PassProperties.Convergence` | cmd/agent/scale/public.go:37-125 | a successful pass reaches the configured count using exactly `|expected - running|` mutating calls; at the count, only the list call is made |
| `PassProperties.SortExample` | cmd/agent/scale/public.go:241-261 | example: three instances listed `[a, b, c]`, `b` oldest and `c` newest, sort to `[c, a, b]` |
| `PassProperties.OldestDeletedExample` | cmd/agent/scale/public.go:43-73 | instances created at 200, 100 and 300 with a target of two: the one created at 100 is deleted and the other two stay newest first |
| `PassProperties.FailFastOnCreateExample` | cmd/agent/scale/public.go:75-102 | an empty group to grow to two or more, the second Create failing: List, Create, AddTags, Create, one instance kept, the create error returned |

## Left out

- Constructing the compute client from account, key id, key material and URL (cmd/agent/scale/public.go:23-35 and the credential getters of cmd/config/public.go:96-117): these only build an HTTP client.
- Base64 decoding itself: it is the `Decoder` parameter. The model does not restate the decoding rules of the standard alphabet of section 4 of RFC 4648.
- Reading viper keys, `IsSet` and `GetStringSlice`: each configured value is an input, with `None` for an unset key.
- The compute API calls (List, Create, AddTags, Delete): they are the replies of the `Directory` parameter, fixed in advance. A failed call is assumed to change nothing.
- The structured log lines (zerolog fields, notification types such as `TSG_INSTANCE_TERMINATE`): they do not affect the result.
- The CLI wiring and the agent's periodic schedule.
- The exact order `sort.Sort` gives instances created in the same second. `Instances.SortNewestFirst` is one admissible order. `Instances.SortedSecondsUnique` shows that every newest-first order agrees on creation seconds at each position.
- Instances.Unix: only whole creation seconds are modelled, as `Unix()` returns.
- Go's `int` width: counts are unbounded integers, with no overflow in `expected - running`.
- Strings are sequences of characters. Go slices `[:8]` by bytes, so for non-ASCII ids the 8-character prefix can differ from the Go byte prefix.
- Config.GetMachineTags: the panic on an entry without `=` (the `m[1]` index) is a precondition rather than a modelled fault. Config.GetMachineMetadata and Config.Resolve carry the same precondition for decoded metadata entries.
- Scale.ScaleGroup: like Config.Resolve, it requires that every configured tag holds a `=`, even for a pass that never creates an instance. Go would only panic when CreateInstance runs.
- Scale.ScaleUp: `config.GetTsgTemplateID()` is read once for the whole pass, not once per iteration as at cmd/agent/scale/public.go:78. The configuration is assumed not to change during a pass.
- Scale.ScaleDown: its own contract does not say which error a failed delete ends the pass with. `PassProperties.ReconcileScaleDownStops` states that the failing delete is the last call and that its error is returned.
- Scale.ScaleUp: its own contract does not list the calls or the instances kept when the loop stops. `PassProperties.ScaleUpStops` states both for a stopped scale-up, and `PassProperties.CreateTaggedCompletes` states the calls of a completed loop.
- Scale.CreateTagged: its own contract does not list the calls either. The same two `PassProperties` lemmas state them.
- mergo's handling of pointers, structs and non-string maps: only `map[string]string` merging without the override option is modelled.

=== FILE: config.dfy ===
/** The configuration getters of cmd/config/public.go that feed the reconciler,
    as pure functions over the configured values. A configuration key that is
    not set is `None`; viper's string reads of an unset key give "". */
module Config {
  import opened Outcomes
  import opened Strings

  /** A configuration value that could not be decoded. */
  datatype ConfigError = Base64Error(input: string)

  /** Standard base64 decoding (the alphabet of section 4 of RFC 4648), kept
      uninterpreted: `None` when the input is not valid base64. */
  type Decoder = string -> Option<string>

  /** The raw values behind the configuration keys the reconciler reads. */
  datatype RawConfig = RawConfig(
    groupName: string,
    templateID: string,
    count: int,
    firewall: bool,
    networks: Option<seq<string>>,
    affinity: Option<seq<string>>,
    tags: Option<seq<string>>,
    metadata: Option<seq<string>>,
    userdata: string,
    packageID: string,
    imageID: string)

  /** The configuration the create request is assembled from, with every list
      parsed and every base64 value decoded. */
  datatype Settings = Settings(
    groupName: string,
    templateID: string,
    firewall: bool,
    networks: Option<seq<string>>,
    affinity: Option<seq<string>>,
    tags: Option<map<string, string>>,
    metadata: Option<map<string, string>>,
    userdata: string,
    packageID: string,
    imageID: string)

  // ---- key=value entries ---------------------------------------------------

  /** The key and the value of one `key=value` entry, as `m[0]` and `m[1]` of
      `strings.Split(entry, "=")`: the key is the text before the first `=`,
      the value the text between the first and the second `=`. */
  function ParseEntry(entry: string): (kv: (string, string))
    requires '=' in entry
    ensures '=' !in kv.0 && '=' !in kv.1
    ensures |kv.0| + 1 + |kv.1| <= |entry|
    ensures entry[..|kv.0|] == kv.0 && entry[|kv.0|] == '='
    ensures entry[|kv.0| + 1 .. |kv.0| + 1 + |kv.1|] == kv.1
    ensures |kv.0| + 1 + |kv.1| < |entry| ==> entry[|kv.0| + 1 + |kv.1|] == '='
  {
    var m := Split(entry, '=');
    assert |m| >= 2;
    assert entry == m[0] + ['='] + Join(m[1..], '=');
    assert |m[1..]| > 1 ==> Join(m[1..], '=') == m[1] + ['='] + Join(m[2..], '=') by {
      assert m[1..][1..] == m[2..];
    }
    (m[0], m[1])
  }

  /** Entries that `ParseEntry` accepts: each contains a `=`. */
  predicate AllEntries(entries: seq<string>) {
    forall i :: 0 <= i < |entries| ==> '=' in entries[i]
  }

  /** The key of pair `i` is not repeated by any later pair. */
  ghost predicate LastWithKey(kvs: seq<(string, string)>, i: int)
    requires 0 <= i < |kvs|
  {
    forall j :: i < j < |kvs| ==> kvs[j].0 != kvs[i].0
  }

  /** The loop body `tags[m[0]] = m[1]` run over the parsed pairs in order:
      every pair's key is present, and a key repeated by several pairs maps to
      the value of the last of them. */
  function PairsToMap(kvs: seq<(string, string)>): (m: map<string, string>)
    ensures m.Keys == set i | 0 <= i < |kvs| :: kvs[i].0
    ensures forall i :: 0 <= i < |kvs| && LastWithKey(kvs, i) ==> m[kvs[i].0] == kvs[i].1
    decreases |kvs|
  {
    if |kvs| == 0 then map[]
    else
      var init := kvs[..|kvs| - 1];
      var kv := kvs[|kvs| - 1];
      KeysSnoc(kvs);
      LastWithKeySnoc(kvs);
      PairsToMap(init)[kv.0 := kv.1]
  }

  /** The keys of a list of pairs grow by the last pair's key. */
  lemma {:induction false} KeysSnoc(kvs: seq<(string, string)>)
    requires |kvs| > 0
    ensures var init := kvs[..|kvs| - 1];
            (set i | 0 <= i < |kvs| :: kvs[i].0) == (set i | 0 <= i < |init| :: init[i].0) + {kvs[|kvs| - 1].0}
  {
    var init := kvs[..|kvs| - 1];
    assert forall i :: 0 <= i < |init| ==> init[i] == kvs[i];
  }

  /** A pair before the last that is the last with its key in the whole list
      is so in the list without the last pair, and has another key. */
  lemma LastWithKeySnoc(kvs: seq<(string, string)>)
    requires |kvs| > 0
    ensures forall i :: 0 <= i < |kvs| - 1 && LastWithKey(kvs, i) ==>
              LastWithKey(kvs[..|kvs| - 1], i) && kvs[..|kvs| - 1][i].0 != kvs[|kvs| - 1].0
  {
  }

  /** `strings.Split(e, "=")` applied to every entry, keeping `m[0]` and `m[1]`. */
  function ParseEntries(entries: seq<string>): (kvs: seq<(string, string)>)
    requires AllEntries(entries)
    ensures |kvs| == |entries|
    ensures forall i :: 0 <= i < |entries| ==> kvs[i] == ParseEntry(entries[i])
  {
    seq(|entries|, i requires 0 <= i < |entries| => ParseEntry(entries[i]))
  }

  /** The map the configured `key=value` entries build, in configuration order. */
  function EntriesToMap(entries: seq<string>): (m: map<string, string>)
    requires AllEntries(entries)
  {
    PairsToMap(ParseEntries(entries))
  }

  /** GetMachineTags: nil when the key is unset, otherwise the map the entries build. */
  function GetMachineTags(cfg: Option<seq<string>>): (r: Option<map<string, string>>)
    requires cfg.Some? ==> AllEntries(cfg.value)
    ensures r.None? <==> cfg.None?
    ensures r.Some? ==> r.value.Keys == set i | 0 <= i < |cfg.value| :: ParseEntry(cfg.value[i]).0
    ensures r.Some? ==> forall i :: 0 <= i < |cfg.value| && LastWithKey(ParseEntries(cfg.value), i) ==>
              r.value[ParseEntry(cfg.value[i]).0] == ParseEntry(cfg.value[i]).1
  {
    match cfg
    case None => None
    case Some(entries) =>
      var kvs := ParseEntries(entries);
      assert (set i | 0 <= i < |entries| :: ParseEntry(entries[i]).0) == (set i | 0 <= i < |kvs| :: kvs[i].0);
      Some(PairsToMap(kvs))
  }

  // ---- base64 values -------------------------------------------------------

  /** Entry `i` is the first one that does not decode. */
  ghost predicate FirstUndecodable(entries: seq<string>, decode: Decoder, i: int) {
    && 0 <= i < |entries|
    && decode(entries[i]).None?
    && forall j :: 0 <= j < i ==> decode(entries[j]).Some?
  }

  /** Decodes the entries in order, stopping at the first that is not base64. */
  function DecodeAll(entries: seq<string>, decode: Decoder): (r: Result<seq<string>, ConfigError>)
    ensures r.Success? <==> forall i :: 0 <= i < |entries| ==> decode(entries[i]).Some?
    ensures r.Success? ==> |r.value| == |entries|
    ensures r.Success? ==> forall i :: 0 <= i < |entries| ==> decode(entries[i]) == Some(r.value[i])
    ensures r.Failure? ==> exists i :: FirstUndecodable(entries, decode, i) && r.error == Base64Error(entries[i])
    decreases |entries|
  {
    if |entries| == 0 then Success([])
    else
      match decode(entries[0])
      case None =>
        assert FirstUndecodable(entries, decode, 0);
        Failure(Base64Error(entries[0]))
      case Some(d) =>
        match DecodeAll(entries[1..], decode)
        case Failure(e) =>
          ghost var i :| FirstUndecodable(entries[1..], decode, i) && e == Base64Error(entries[1..][i]);
          assert FirstUndecodable(entries, decode, i + 1);
          Failure(e)
        case Success(ds) =>
          assert forall i :: 0 < i < |entries| ==> entries[i] == entries[1..][i - 1];
          Success([d] + ds)
  }

  /** What GetMachineMetadata needs to run without a panic: every entry it
      decodes before the first undecodable one contains a `=`. */
  ghost predicate MetadataEntries(entries: seq<string>, decode: Decoder) {
    forall i :: 0 <= i < |entries| && (forall j :: 0 <= j <= i ==> decode(entries[j]).Some?) ==>
      '=' in decode(entries[i]).value
  }

  /** GetMachineMetadata: nil without error when the key is unset; the first
      decoding error and no map when an entry is not base64; otherwise the
      map the decoded entries build, exactly as GetMachineTags builds it. */
  function GetMachineMetadata(cfg: Option<seq<string>>, decode: Decoder): (r: Result<Option<map<string, string>>, ConfigError>)
    requires cfg.Some? ==> MetadataEntries(cfg.value, decode)
    ensures cfg.None? ==> r == Success(None)
    ensures cfg.Some? ==> (r.Success? <==> forall i :: 0 <= i < |cfg.value| ==> decode(cfg.value[i]).Some?)
    ensures r.Failure? ==> cfg.Some? && exists i :: FirstUndecodable(cfg.value, decode, i) && r.error == Base64Error(cfg.value[i])
    ensures r.Success? && cfg.Some? ==> var decoded := DecodeAll(cfg.value, decode).value;
              AllEntries(decoded) && r.value == GetMachineTags(Some(decoded))
  {
    match cfg
    case None => Success(None)
    case Some(entries) =>
      match DecodeAll(entries, decode)
      case Failure(e) => Failure(e)
      case Success(decoded) =>
        assert AllEntries(decoded) by {
          forall i | 0 <= i < |decoded| ensures '=' in decoded[i] {
            assert forall j :: 0 <= j <= i ==> decode(entries[j]).Some?;
          }
        }
        Success(Some(EntriesToMap(decoded)))
  }

  /** GetMachineUserdata: the decoded text or the decoding error, never both. */
  function GetMachineUserdata(value: string, decode: Decoder): (r: Result<string, ConfigError>)
    ensures r.Success? <==> decode(value).Some?
    ensures r.Success? ==> Some(r.value) == decode(value)
    ensures r.Failure? ==> r.error == Base64Error(value)
  {
    match decode(value)
    case None => Failure(Base64Error(value))
    case Some(d) => Success(d)
  }

  // ---- string lists --------------------------------------------------------

  /** `append` of one element to a possibly nil slice. */
  function Append(acc: Option<seq<string>>, x: string): (r: Option<seq<string>>)
    ensures r.Some? && Elements(r) == Elements(acc) + [x]
  {
    match acc
    case None => Some([x])
    case Some(s) => Some(s + [x])
  }

  /** The elements of a possibly nil slice. */
  function Elements(acc: Option<seq<string>>): seq<string>
  {
    match acc
    case None => []
    case Some(s) => s
  }

  /** The loop `for _, i := range xs { acc = append(acc, i) }`: a nil slice
      stays nil when nothing is appended. */
  function AppendAll(acc: Option<seq<string>>, xs: seq<string>): (r: Option<seq<string>>)
    ensures |xs| == 0 ==> r == acc
    ensures |xs| > 0 ==> r == Some(Elements(acc) + xs)
    decreases |xs|
  {
    if |xs| == 0 then acc
    else
      assert Elements(Append(acc, xs[0])) + xs[1..] == Elements(acc) + xs;
      assert |xs| == 1 ==> xs == [xs[0]];
      AppendAll(Append(acc, xs[0]), xs[1..])
  }

  /** Copies a configured string list, as GetMachineNetworks and
      GetMachineAffinityRules do: nil when unset or empty, else the same list. */
  function CopyStringSlice(cfg: Option<seq<string>>): (r: Option<seq<string>>)
    ensures r.None? <==> (cfg.None? || |cfg.value| == 0)
    ensures r.Some? ==> r.value == cfg.value
  {
    match cfg
    case None => None
    case Some(xs) => AppendAll(None, xs)
  }

  /** GetMachineNetworks: nil, or the configured network ids in their order. */
  function GetMachineNetworks(cfg: Option<seq<string>>): (r: Option<seq<string>>)
    ensures r.None? <==> (cfg.None? || |cfg.value| == 0)
    ensures r.Some? ==> r.value == cfg.value
  {
    CopyStringSlice(cfg)
  }

  /** GetMachineAffinityRules: nil, or the configured rules in their order. */
  function GetMachineAffinityRules(cfg: Option<seq<string>>): (r: Option<seq<string>>)
    ensures r.None? <==> (cfg.None? || |cfg.value| == 0)
    ensures r.Some? ==> r.value == cfg.value
  {
    CopyStringSlice(cfg)
  }

  // ---- all together --------------------------------------------------------

  /** Reads every getter CreateInstance uses, once, before the pass begins: a
      decoding error in the userdata or the metadata is a configuration error. */
  function Resolve(raw: RawConfig, decode: Decoder): (r: Result<Settings, ConfigError>)
    requires raw.tags.Some? ==> AllEntries(raw.tags.value)
    requires raw.metadata.Some? ==> MetadataEntries(raw.metadata.value, decode)
    ensures r.Success? <==> GetMachineUserdata(raw.userdata, decode).Success? &&
                            GetMachineMetadata(raw.metadata, decode).Success?
    ensures GetMachineUserdata(raw.userdata, decode).Failure? ==>
              r == Failure(GetMachineUserdata(raw.userdata, decode).error)
    ensures GetMachineUserdata(raw.userdata, decode).Success? && GetMachineMetadata(raw.metadata, decode).Failure? ==>
              r == Failure(GetMachineMetadata(raw.metadata, decode).error)
    ensures r.Success? ==> && r.value.groupName == raw.groupName
                           && r.value.templateID == raw.templateID
                           && r.value.firewall == raw.firewall
                           && r.value.packageID == raw.packageID
                           && r.value.imageID == raw.imageID
                           && Some(r.value.userdata) == decode(raw.userdata)
                           && r.value.tags == GetMachineTags(raw.tags)
                           && Success(r.value.metadata) == GetMachineMetadata(raw.metadata, decode)
                           && r.value.networks == GetMachineNetworks(raw.networks)
                           && r.value.affinity == GetMachineAffinityRules(raw.affinity)
  {
    match GetMachineUserdata(raw.userdata, decode)
    case Failure(e) => Failure(e)
    case Success(userdata) =>
      match GetMachineMetadata(raw.metadata, decode)
      case Failure(e) => Failure(e)
      case Success(metadata) =>
        Success(Settings(
          raw.groupName, raw.templateID, raw.firewall,
          GetMachineNetworks(raw.networks), GetMachineAffinityRules(raw.affinity),
          GetMachineTags(raw.tags), metadata, userdata,
          raw.packageID, raw.imageID))
  }

  // ---- properties ----------------------------------------------------------

  /** Round trip: an entry written as `key=value`, optionally followed by
      more text that starts with `=`, parses back to that key and value. */
  lemma {:induction false} ParseEntryOf(key: string, value: string, rest: string)
    requires '=' !in key && '=' !in value
    requires |rest| == 0 || rest[0] == '='
    ensures ParseEntry(key + "=" + value + rest) == (key, value)
  {
    var e := key + "=" + value + rest;
    if |rest| == 0 {
      assert e == key + ['='] + value;
      SplitAfterPiece(key, '=', value);
      SplitWithoutSeparator(value, '=');
    } else {
      assert e == key + ['='] + (value + ['='] + rest[1..]);
      SplitAfterPiece(key, '=', value + ['='] + rest[1..]);
      SplitAfterPiece(value, '=', rest[1..]);
    }
  }

  /** Of two later entries with the same key, the second one's value wins. */
  lemma {:induction false} LaterTagWins(entries: seq<string>, e1: string, e2: string)
    requires AllEntries(entries) && '=' in e1 && '=' in e2
    requires ParseEntry(e1).0 == ParseEntry(e2).0
    ensures AllEntries(entries + [e1] + [e2])
    ensures EntriesToMap(entries + [e1] + [e2]) == EntriesToMap(entries)[ParseEntry(e2).0 := ParseEntry(e2).1]
  {
    EntriesToMapSnoc(entries, e1);
    EntriesToMapSnoc(entries + [e1], e2);
  }

  /** One more entry performs one more map assignment. */
  lemma {:induction false} EntriesToMapSnoc(entries: seq<string>, e: string)
    requires AllEntries(entries) && '=' in e
    ensures AllEntries(entries + [e])
    ensures EntriesToMap(entries + [e]) == EntriesToMap(entries)[ParseEntry(e).0 := ParseEntry(e).1]
  {
    ParseEntriesSnoc(entries, e);
    PairsToMapSnoc(ParseEntries(entries), ParseEntry(e));
  }

  /** One more entry parses to one more pair. */
  lemma {:induction false} ParseEntriesSnoc(entries: seq<string>, e: string)
    requires AllEntries(entries) && '=' in e
    ensures AllEntries(entries + [e])
    ensures ParseEntries(entries + [e]) == ParseEntries(entries) + [ParseEntry(e)]
  {
    var all := entries + [e];
    assert forall i :: 0 <= i < |entries| ==> all[i] == entries[i];
    assert all[|entries|] == e;
  }

  /** Appending one pair performs one more map assignment. */
  lemma {:induction false} PairsToMapSnoc(kvs: seq<(string, string)>, kv: (string, string))
    ensures PairsToMap(kvs + [kv]) == PairsToMap(kvs)[kv.0 := kv.1]
  {
    assert (kvs + [kv])[..|kvs|] == kvs;
  }
}

=== FILE: instances.dfy ===
/** Instances as the Triton compute API reports them, and the newest-first
    ordering `sortInstances` gives the instance list. */
module Instances {

  /** A creation time: whole seconds since the Unix epoch and the nanoseconds
      within that second. */
  datatype Timestamp = Timestamp(seconds: int, nanos: nat)

  /** `time.Time.Unix()`: the whole seconds, so sub-second parts never matter. */
  function Unix(t: Timestamp): int {
    t.seconds
  }

  /** A compute instance: its provider-assigned id and creation time. */
  datatype Instance = Instance(id: string, created: Timestamp)

  /** `instanceSort.Less`: `a` was created in an earlier second than `b`. */
  predicate Older(a: Instance, b: Instance) {
    Unix(a.created) < Unix(b.created)
  }

  /** Non-increasing in creation second: the order `sort.Reverse` of `Less`
      produces, so the oldest instances sit at the tail. */
  ghost predicate NewestFirst(s: seq<Instance>) {
    forall i, j :: 0 <= i < j < |s| ==> !Older(s[i], s[j])
  }

  /** No instance of `s` is newer than `b`. */
  ghost predicate NoneNewer(s: seq<Instance>, b: Instance) {
    forall i :: 0 <= i < |s| ==> !Older(b, s[i])
  }

  /** No instance of `s` is older than `d`. */
  ghost predicate NoneOlder(s: seq<Instance>, d: Instance) {
    forall i :: 0 <= i < |s| ==> !Older(s[i], d)
  }

  /** Putting `a` in front of a newest-first list no instance of which is newer
      than `a` keeps it newest-first. */
  lemma {:induction false} NewestFirstCons(a: Instance, t: seq<Instance>)
    requires NewestFirst(t) && NoneNewer(t, a)
    ensures NewestFirst([a] + t)
  {
    var r := [a] + t;
    forall i, j | 0 <= i < j < |r| ensures !Older(r[i], r[j]) {
      assert r[j] == t[j - 1];
      if i > 0 { assert r[i] == t[i - 1]; }
    }
  }

  /** Inserts `x` into a newest-first list ahead of every instance it is not
      older than; the new head is `x` or the old head. */
  function Insert(x: Instance, s: seq<Instance>): (r: seq<Instance>)
    requires NewestFirst(s)
    ensures NewestFirst(r)
    ensures |r| == |s| + 1
    ensures multiset(r) == multiset(s) + multiset{x}
    ensures r[0] == x || (|s| > 0 && r[0] == s[0])
    decreases |s|
  {
    if |s| == 0 then [x]
    else if !Older(x, s[0]) then
      assert NoneNewer(s, x);
      NewestFirstCons(x, s);
      [x] + s
    else
      assert s == [s[0]] + s[1..];
      var t := Insert(x, s[1..]);
      assert NoneNewer(t, s[0]) by {
        forall i | 0 <= i < |t| ensures !Older(s[0], t[i]) {
          assert !Older(s[0], t[0]);
        }
      }
      NewestFirstCons(s[0], t);
      [s[0]] + t
  }

  /** `sortInstances`: a newest-first permutation of the listed instances.
      `sort.Sort` is not stable, so the order among instances created in the
      same second is not fixed; this definition is one of the admissible ones,
      and every property of the pass is stated for any `NewestFirst` list. */
  function SortNewestFirst(s: seq<Instance>): (r: seq<Instance>)
    ensures NewestFirst(r)
    ensures |r| == |s|
    ensures multiset(r) == multiset(s)
    decreases |s|
  {
    if |s| == 0 then []
    else
      assert s == [s[0]] + s[1..];
      Insert(s[0], SortNewestFirst(s[1..]))
  }

  /** In a newest-first list, nothing in a tail is newer than anything before it. */
  lemma {:induction false} TailIsOldest(s: seq<Instance>, n: nat)
    requires NewestFirst(s)
    requires n <= |s|
    ensures forall a, b :: a in s[..n] && b in s[n..] ==> Unix(b.created) <= Unix(a.created)
  {
    forall a, b | a in s[..n] && b in s[n..] ensures Unix(b.created) <= Unix(a.created) {
      var i :| 0 <= i < n && s[..n][i] == a;
      var j :| 0 <= j < |s| - n && s[n..][j] == b;
      assert s[i] == a && s[n + j] == b;
    }
  }

  /** The newest-first list `t` with the element at `i` taken out. */
  lemma {:induction false} RemoveAt(t: seq<Instance>, i: nat)
    requires NewestFirst(t) && i < |t|
    ensures |t[..i] + t[i + 1..]| == |t| - 1
    ensures forall k :: 0 <= k < |t| - 1 ==> (t[..i] + t[i + 1..])[k] == if k < i then t[k] else t[k + 1]
    ensures NewestFirst(t[..i] + t[i + 1..])
  {
    var t' := t[..i] + t[i + 1..];
    assert forall k :: 0 <= k < |t'| ==> t'[k] == if k < i then t[k] else t[k + 1];
    forall a, b | 0 <= a < b < |t'| ensures !Older(t'[a], t'[b]) {
      var a' := if a < i then a else a + 1;
      var b' := if b < i then b else b + 1;
      assert a' < b';
      assert t'[a] == t[a'] && t'[b] == t[b'];
    }
  }

  /** Two newest-first orders of the same instances start in the same second. */
  lemma {:induction false} FirstSecondsAgree(s: seq<Instance>, t: seq<Instance>)
    requires NewestFirst(s) && NewestFirst(t)
    requires multiset(s) == multiset(t) && |s| > 0 && |t| > 0
    ensures Unix(s[0].created) == Unix(t[0].created)
  {
    assert s[0] in multiset(t) && t[0] in multiset(s);
    var i :| 0 <= i < |t| && t[i] == s[0];
    var j :| 0 <= j < |s| && s[j] == t[0];
    assert i == 0 || !Older(t[0], t[i]);
    assert j == 0 || !Older(s[0], s[j]);
  }

  /** In a newest-first list, everything up to an instance of the first
      second is of that second too. */
  lemma {:induction false} SameSecondPrefix(t: seq<Instance>, i: nat)
    requires NewestFirst(t) && i < |t|
    requires Unix(t[i].created) == Unix(t[0].created)
    ensures forall k :: 0 <= k <= i ==> Unix(t[k].created) == Unix(t[0].created)
  {
    forall k | 0 <= k <= i ensures Unix(t[k].created) == Unix(t[0].created) {
      assert k == 0 || !Older(t[0], t[k]);
      assert k == i || !Older(t[k], t[i]);
    }
  }

  /** The tail of a newest-first list is newest-first. */
  lemma {:induction false} NewestFirstTail(s: seq<Instance>)
    requires NewestFirst(s) && |s| > 0
    ensures NewestFirst(s[1..])
  {
    forall a, b | 0 <= a < b < |s| - 1 ensures !Older(s[1..][a], s[1..][b]) {
      assert s[1..][a] == s[a + 1] && s[1..][b] == s[b + 1];
    }
  }

  /** Taking the first instance off `s` and the same instance off `t`
      leaves equal multisets. */
  lemma {:induction false} RemoveFirstMatch(s: seq<Instance>, t: seq<Instance>, i: nat)
    requires multiset(s) == multiset(t) && |s| > 0 && i < |t| && t[i] == s[0]
    ensures multiset(s[1..]) == multiset(t[..i] + t[i + 1..])
  {
    assert s == [s[0]] + s[1..];
    assert multiset(s) == multiset{s[0]} + multiset(s[1..]);
    assert t == t[..i] + [t[i]] + t[i + 1..];
    assert multiset(t) == multiset(t[..i]) + multiset{t[i]} + multiset(t[i + 1..]);
    assert multiset(t[..i] + t[i + 1..]) == multiset(t[..i]) + multiset(t[i + 1..]);
    assert multiset(s[1..]) == multiset(s) - multiset{s[0]};
    assert multiset(t[..i] + t[i + 1..]) == multiset(t) - multiset{t[i]};
  }

  /** Two newest-first orders of the same instances list the same creation
      seconds position by position: the unstable sort can only reorder
      instances created in the same second. */
  lemma {:induction false} SortedSecondsUnique(s: seq<Instance>, t: seq<Instance>)
    requires NewestFirst(s) && NewestFirst(t)
    requires multiset(s) == multiset(t)
    ensures |s| == |t|
    ensures forall k :: 0 <= k < |s| ==> Unix(s[k].created) == Unix(t[k].created)
    decreases |s|
  {
    assert |s| == |multiset(s)| == |multiset(t)| == |t|;
    if |s| > 0 {
      FirstSecondsAgree(s, t);
      assert s[0] in multiset(t);
      var i :| 0 <= i < |t| && t[i] == s[0];
      SameSecondPrefix(t, i);
      RemoveAt(t, i);
      RemoveFirstMatch(s, t, i);
      NewestFirstTail(s);
      var t' := t[..i] + t[i + 1..];
      SortedSecondsUnique(s[1..], t');
      forall k | 1 <= k < |s| ensures Unix(s[k].created) == Unix(t[k].created) {
        assert s[k] == s[1..][k - 1];
        assert t'[k - 1] == if k - 1 < i then t[k - 1] else t[k];
      }
    }
  }
}

=== FILE: outcomes.dfy ===
/** Failure-carrying datatypes shared by the configuration getters and the
    reconciliation pass: Go's `(value, error)` and `error` returns, and nil-able values. */
module Outcomes {

  /** A value that may be absent; `None` stands for Go's nil slice or map. */
  datatype Option<+T> = None | Some(value: T)

  /** Either a value or the error that took its place, never both. */
  datatype Result<+R, +E> = Success(value: R) | Failure(error: E)

  /** A Go `error` return: nil (`Pass`) or an error value. */
  datatype Outcome<+E> = Pass | Fail(error: E)
}

=== FILE: pass_properties.dfy ===
/** Properties of one MaintainInstanceCount pass that relate several calls of
    the model: where each loop stops, which instances it deletes, how many
    mutating calls a successful pass makes, and worked examples (oldest-first
    deletion, fail-fast creation). */
module PassProperties {
  import opened Outcomes
  import opened Config
  import opened Instances
  import opened Requests
  import opened Scale

  // ---- scale down ----------------------------------------------------------

  /** The first failed delete, the `f`-th of the loop, ends it: `f + 1` deletes
      were sent, the `f` before it took effect, and its error is returned. */
  lemma {:induction false} DeleteTailStopsAtFailure(fleet: seq<Instance>, remaining: nat, k: nat, dir: Directory, f: nat)
    requires f < remaining && f < |fleet|
    requires forall j :: k <= j < k + f ==> dir.delete(j).Pass?
    requires dir.delete(k + f).Fail?
    ensures var r := DeleteTail(fleet, remaining, k, dir);
            && |r.calls| == f + 1
            && r.fleet == fleet[..|fleet| - f]
            && r.outcome == Fail(Api(dir.delete(k + f).error))
    decreases f
  {
    if f > 0 {
      var init := fleet[..|fleet| - 1];
      DeleteTailStopsAtFailure(init, remaining - 1, k + 1, dir, f - 1);
      assert init[..|init| - (f - 1)] == fleet[..|fleet| - f];
    }
  }

  /** With more deletes to do than instances listed and every delete
      succeeding, the loop empties the list and then panics on
      `instances[len(instances)-1]`. */
  lemma {:induction false} DeleteTailExhausts(fleet: seq<Instance>, remaining: nat, k: nat, dir: Directory)
    requires remaining > |fleet|
    requires forall j :: k <= j < k + |fleet| ==> dir.delete(j).Pass?
    ensures var r := DeleteTail(fleet, remaining, k, dir);
            r.outcome == Fail(IndexOutOfRange) && r.fleet == [] && |r.calls| == |fleet|
    decreases |fleet|
  {
    if |fleet| > 0 {
      DeleteTailExhausts(fleet[..|fleet| - 1], remaining - 1, k + 1, dir);
    }
  }

  /** A negative configured count: every listed instance is deleted and the
      pass still ends in the index panic. */
  lemma {:induction false} NegativeCountPanics(sorted: seq<Instance>, expected: int, s: Settings, dir: Directory)
    requires expected < 0
    requires forall j :: 0 <= j < |sorted| ==> dir.delete(j).Pass?
    ensures var r := Reconcile(sorted, expected, s, dir);
            r.outcome == Fail(IndexOutOfRange) && r.fleet == [] && |r.calls| == |sorted|
  {
    DeleteTailExhausts(sorted, |sorted| - expected, 0, dir);
  }

  /** A pass that scales down to a non-negative count and whose `f`-th delete
      is the first to fail sends that delete as its last call, keeps the
      instances the earlier deletes did not remove, and returns its error. */
  lemma {:induction false} ReconcileScaleDownStops(sorted: seq<Instance>, expected: int, s: Settings, dir: Directory, f: nat)
    requires 0 <= expected < |sorted| && f < |sorted| - expected
    requires forall j :: 0 <= j < f ==> dir.delete(j).Pass?
    requires dir.delete(f).Fail?
    ensures var r := Reconcile(sorted, expected, s, dir);
            && |r.calls| == f + 1
            && r.calls[f] == Delete(sorted[|sorted| - 1 - f].id)
            && r.fleet == sorted[..|sorted| - f]
            && r.outcome == Fail(Api(dir.delete(f).error))
  {
    DeleteTailStopsAtFailure(sorted, |sorted| - expected, 0, dir, f);
    assert Reconcile(sorted, expected, s, dir) == ScaleDown(sorted, expected, dir);
  }

  /** Scale-down takes instances from the oldest end of a newest-first list:
      the `j`-th delete targets position `|sorted| - 1 - j`, no newer than any
      instance before it in the list nor than any instance kept, and the
      instances left are a prefix of the list. */
  lemma {:induction false} DeletesOldestFirst(sorted: seq<Instance>, expected: int, dir: Directory)
    requires NewestFirst(sorted) && expected < |sorted|
    ensures var r := ScaleDown(sorted, expected, dir);
            && r.fleet == sorted[..|r.fleet|]
            && (forall j :: 0 <= j < |r.calls| ==> r.calls[j] == Delete(sorted[|sorted| - 1 - j].id))
            && (forall p, i :: |sorted| - |r.calls| <= p < |sorted| && 0 <= i < p ==>
                  Unix(sorted[p].created) <= Unix(sorted[i].created))
            && (forall p :: |sorted| - |r.calls| <= p < |sorted| ==> NoneOlder(r.fleet, sorted[p]))
  {
    var r := ScaleDown(sorted, expected, dir);
    forall p, i | |sorted| - |r.calls| <= p < |sorted| && 0 <= i < p
      ensures Unix(sorted[p].created) <= Unix(sorted[i].created)
    {
      assert !Older(sorted[i], sorted[p]);
    }
    forall p | |sorted| - |r.calls| <= p < |sorted| ensures NoneOlder(r.fleet, sorted[p]) {
      TailIsOldest(sorted, p);
      forall i | 0 <= i < |r.fleet| ensures !Older(r.fleet[i], sorted[p]) {
        assert r.fleet[i] == sorted[i];
        if i < p {
          assert sorted[i] in sorted[..p] && sorted[p] in sorted[p..];
        }
      }
    }
  }

  /** `c` deletes a listed instance that no instance of `fleet` is older than. */
  ghost predicate DeletesListedOldest(c: Call, listed: seq<Instance>, fleet: seq<Instance>) {
    exists d :: d in listed && c == Delete(d.id) && NoneOlder(fleet, d)
  }

  /** Scale-down over the whole pass: every instance left was listed, and
      every Delete the pass sends names a listed instance that no instance
      left in the group is older than. */
  lemma {:induction false} PassDeletesOldest(s: Settings, expected: int, dir: Directory)
    requires dir.list.Success? && expected < |dir.list.value|
    ensures var r := MaintainInstanceCount(s, expected, dir);
            && multiset(r.fleet) <= multiset(dir.list.value)
            && (forall j :: 1 <= j < |r.calls| ==> DeletesListedOldest(r.calls[j], dir.list.value, r.fleet))
  {
    var listed := dir.list.value;
    var sorted := SortNewestFirst(listed);
    var inner := ScaleDown(sorted, expected, dir);
    var r := MaintainInstanceCount(s, expected, dir);
    assert r == Run([List(ListFilter(s.groupName))] + inner.calls, inner.fleet, inner.outcome) by {
      ListedPass(s, expected, dir);
    }
    ScaleDownDeletesListed(listed, sorted, expected, dir);
    AfterListCall(listed, List(ListFilter(s.groupName)), inner, r);
  }

  /** The list call in front of the deletes shifts them by one position. */
  lemma {:induction false} AfterListCall(listed: seq<Instance>, list: Call, inner: Run, r: Run)
    requires r == Run([list] + inner.calls, inner.fleet, inner.outcome)
    requires forall j :: 0 <= j < |inner.calls| ==> DeletesListedOldest(inner.calls[j], listed, inner.fleet)
    ensures forall j :: 1 <= j < |r.calls| ==> DeletesListedOldest(r.calls[j], listed, r.fleet)
  {
    forall j | 1 <= j < |r.calls| ensures DeletesListedOldest(r.calls[j], listed, r.fleet) {
      assert r.calls[j] == inner.calls[j - 1];
      assert DeletesListedOldest(inner.calls[j - 1], listed, inner.fleet);
    }
  }

  /** Scale-down of a newest-first order of the listed instances keeps
      listed instances and deletes listed instances no kept one is older than. */
  lemma {:induction false} ScaleDownDeletesListed(listed: seq<Instance>, sorted: seq<Instance>, expected: int, dir: Directory)
    requires NewestFirst(sorted) && multiset(sorted) == multiset(listed) && expected < |sorted|
    ensures var r := ScaleDown(sorted, expected, dir);
            && multiset(r.fleet) <= multiset(listed)
            && (forall j :: 0 <= j < |r.calls| ==> DeletesListedOldest(r.calls[j], listed, r.fleet))
  {
    var r := ScaleDown(sorted, expected, dir);
    DeletesOldestFirst(sorted, expected, dir);
    DeletedAreListed(listed, sorted, r.fleet, r.calls);
  }

  /** Deletes that target the tail of a reordering of the listed instances
      name listed instances, and a prefix of it holds only listed instances. */
  lemma {:induction false} DeletedAreListed(listed: seq<Instance>, sorted: seq<Instance>, fleet: seq<Instance>, calls: seq<Call>)
    requires multiset(sorted) == multiset(listed)
    requires |fleet| <= |sorted| && fleet == sorted[..|fleet|] && |calls| <= |sorted|
    requires forall j :: 0 <= j < |calls| ==> calls[j] == Delete(sorted[|sorted| - 1 - j].id)
    requires forall p :: |sorted| - |calls| <= p < |sorted| ==> NoneOlder(fleet, sorted[p])
    ensures multiset(fleet) <= multiset(listed)
    ensures forall j :: 0 <= j < |calls| ==> DeletesListedOldest(calls[j], listed, fleet)
  {
    var m := |fleet|;
    assert sorted == sorted[..m] + sorted[m..];
    assert multiset(sorted) == multiset(sorted[..m]) + multiset(sorted[m..]);
    forall j | 0 <= j < |calls| ensures DeletesListedOldest(calls[j], listed, fleet) {
      var p := |sorted| - 1 - j;
      assert sorted[p] in multiset(listed);
      assert NoneOlder(fleet, sorted[p]);
    }
  }

  // ---- scale up ------------------------------------------------------------

  /** The instances returned by `n` completed iterations from the `k`-th on. */
  function Completed(dir: Directory, templateID: string, k: nat, n: nat): (created: seq<Instance>)
    requires AllIterationsOk(dir, templateID, k, n)
    ensures |created| == n && CreatedBy(created, k, dir) && Taggable(created, templateID)
    decreases n
  {
    if n == 0 then []
    else
      assert IterationOk(dir, templateID, k);
      var rest := Completed(dir, templateID, k + 1, n - 1);
      var created := [dir.create(k).value] + rest;
      assert dir.create(k) == Success(created[0]);
      assert forall j :: 1 <= j < |created| ==> created[j] == rest[j - 1];
      created
  }

  /** When every iteration completes, the loop makes exactly the Create and
      AddTags pairs of the instances it created, and succeeds. */
  lemma {:induction false} CreateTaggedCompletes(remaining: nat, k: nat, templateID: string, req: CreateRequest, dir: Directory)
    requires AllIterationsOk(dir, templateID, k, remaining)
    ensures var done := Completed(dir, templateID, k, remaining);
            CreateTagged(remaining, k, templateID, req, dir) == Growth(Pairs(done, templateID, req), done, Pass)
    decreases remaining
  {
    if remaining > 0 {
      AllIterationsOkCons(dir, templateID, k, remaining);
      CreateTaggedCompletes(remaining - 1, k + 1, templateID, req, dir);
      var rest := Completed(dir, templateID, k + 1, remaining - 1);
      PairsCons(dir.create(k).value, rest, templateID, req);
    }
  }

  /** When iteration `stop` is the first that does not complete, the loop
      makes the pairs of the iterations before it followed by the calls of
      the stopping one, keeps every instance created so far, and returns the
      stopping iteration's fault. */
  lemma {:induction false} CreateTaggedStops(remaining: nat, k: nat, templateID: string, req: CreateRequest, dir: Directory,
                                             stop: nat)
    requires k <= stop < k + remaining
    requires AllIterationsOk(dir, templateID, k, stop - k) && !IterationOk(dir, templateID, stop)
    ensures var done := Completed(dir, templateID, k, stop - k);
            var step := UpIteration(stop, templateID, req, dir);
            && step.Stopped?
            && CreateTagged(remaining, k, templateID, req, dir) ==
               Growth(Pairs(done, templateID, req) + step.calls, done + step.created, Fail(step.fault))
    decreases stop - k
  {
    if stop == k {
      CreateTaggedStopsFirst(remaining, k, templateID, req, dir);
    } else {
      var step := UpIteration(stop, templateID, req, dir);
      var rest := Completed(dir, templateID, k + 1, stop - (k + 1));
      assert CreateTagged(remaining - 1, k + 1, templateID, req, dir) ==
             Growth(Pairs(rest, templateID, req) + step.calls, rest + step.created, Fail(step.fault)) by {
        AllIterationsOkCons(dir, templateID, k, stop - k);
        CreateTaggedStops(remaining - 1, k + 1, templateID, req, dir, stop);
      }
      CreateTaggedStopsLater(remaining, k, templateID, req, dir, stop);
    }
  }

  /** `CreateTaggedStops` when the first iteration is the one that stops. */
  lemma {:induction false} CreateTaggedStopsFirst(remaining: nat, k: nat, templateID: string, req: CreateRequest, dir: Directory)
    requires remaining > 0 && !IterationOk(dir, templateID, k)
    ensures var done := Completed(dir, templateID, k, 0);
            var step := UpIteration(k, templateID, req, dir);
            && step.Stopped?
            && CreateTagged(remaining, k, templateID, req, dir) ==
               Growth(Pairs(done, templateID, req) + step.calls, done + step.created, Fail(step.fault))
  {
    var step := UpIteration(k, templateID, req, dir);
    CreateTaggedStopsHere(remaining, k, templateID, req, dir);
    assert Completed(dir, templateID, k, 0) == [];
    assert Pairs([], templateID, req) + step.calls == step.calls;
    assert [] + step.created == step.created;
  }

  /** The step of `CreateTaggedStops`: a completed first iteration puts its
      pair and instance in front of a loop that stops later. */
  lemma CreateTaggedStopsLater(remaining: nat, k: nat, templateID: string, req: CreateRequest, dir: Directory,
                               stop: nat)
    requires k < stop < k + remaining
    requires AllIterationsOk(dir, templateID, k, stop - k) && !IterationOk(dir, templateID, stop)
    requires var rest := Completed(dir, templateID, k + 1, stop - (k + 1));
             var step := UpIteration(stop, templateID, req, dir);
             && step.Stopped?
             && CreateTagged(remaining - 1, k + 1, templateID, req, dir) ==
                Growth(Pairs(rest, templateID, req) + step.calls, rest + step.created, Fail(step.fault))
    ensures var done := Completed(dir, templateID, k, stop - k);
            var step := UpIteration(stop, templateID, req, dir);
            CreateTagged(remaining, k, templateID, req, dir) ==
            Growth(Pairs(done, templateID, req) + step.calls, done + step.created, Fail(step.fault))
  {
    var step := UpIteration(stop, templateID, req, dir);
    AllIterationsOkCons(dir, templateID, k, stop - k);
    var instance := dir.create(k).value;
    var pair := [Create(req), AddTags(TagInstance(instance.id, templateID))];
    var later := CreateTagged(remaining - 1, k + 1, templateID, req, dir);
    var rest := Completed(dir, templateID, k + 1, stop - (k + 1));
    assert Completed(dir, templateID, k, stop - k) == [instance] + rest;
    assert Pairs([instance] + rest, templateID, req) == pair + Pairs(rest, templateID, req) by {
      PairsCons(instance, rest, templateID, req);
    }
    assert CreateTagged(remaining, k, templateID, req, dir) == Growth(pair + later.calls, [instance] + later.created, later.outcome) by {
      CreateTaggedStep(remaining, k, templateID, req, dir);
    }
    GrowthCons(later, pair, instance, Pairs(rest, templateID, req), rest, step.calls, step.created, step.fault);
  }

  /** An iteration that does not complete ends the loop with its own calls,
      instance and fault. */
  lemma CreateTaggedStopsHere(remaining: nat, k: nat, templateID: string, req: CreateRequest, dir: Directory)
    requires remaining > 0 && !IterationOk(dir, templateID, k)
    ensures var step := UpIteration(k, templateID, req, dir);
            step.Stopped? && CreateTagged(remaining, k, templateID, req, dir) == Growth(step.calls, step.created, Fail(step.fault))
  {
  }

  /** A completed first iteration puts its Create, AddTags and instance in
      front of what the rest of the loop does. */
  lemma CreateTaggedStep(remaining: nat, k: nat, templateID: string, req: CreateRequest, dir: Directory)
    requires remaining > 0 && IterationOk(dir, templateID, k)
    ensures var instance := dir.create(k).value;
            var later := CreateTagged(remaining - 1, k + 1, templateID, req, dir);
            CreateTagged(remaining, k, templateID, req, dir) ==
            Growth([Create(req), AddTags(TagInstance(instance.id, templateID))] + later.calls,
                   [instance] + later.created, later.outcome)
  {
  }

  /** Putting one iteration's calls and instance in front of a stopped loop. */
  lemma {:induction false} GrowthCons(g: Growth, pair: seq<Call>, instance: Instance, restCalls: seq<Call>, rest: seq<Instance>,
                   calls: seq<Call>, created: seq<Instance>, fault: Fault)
    requires g == Growth(restCalls + calls, rest + created, Fail(fault))
    ensures Growth(pair + g.calls, [instance] + g.created, g.outcome) ==
            Growth((pair + restCalls) + calls, ([instance] + rest) + created, Fail(fault))
  {
    assert pair + (restCalls + calls) == (pair + restCalls) + calls;
    assert [instance] + (rest + created) == ([instance] + rest) + created;
  }

  /** A failed create ends the pass: the completed pairs, then the failed
      Create, and its error; nothing is tagged for it. */
  lemma {:induction false} CreateFailureStops(remaining: nat, k: nat, templateID: string, req: CreateRequest, dir: Directory, f: nat)
    requires f < remaining
    requires AllIterationsOk(dir, templateID, k, f) && dir.create(k + f).Failure?
    ensures var done := Completed(dir, templateID, k, f);
            CreateTagged(remaining, k, templateID, req, dir) ==
            Growth(Pairs(done, templateID, req) + [Create(req)], done, Fail(Api(dir.create(k + f).error)))
  {
    var done := Completed(dir, templateID, k, f);
    assert Completed(dir, templateID, k, (k + f) - k) == done;
    assert UpIteration(k + f, templateID, req, dir) == Stopped([Create(req)], [], Api(dir.create(k + f).error));
    CreateTaggedStops(remaining, k, templateID, req, dir, k + f);
    assert done + [] == done;
  }

  /** A failed AddTags ends the pass and leaves its instance created but
      unnamed. */
  lemma {:induction false} TagFailureKeepsInstance(remaining: nat, k: nat, templateID: string, req: CreateRequest, dir: Directory, f: nat,
                                instance: Instance)
    requires f < remaining
    requires AllIterationsOk(dir, templateID, k, f)
    requires dir.create(k + f) == Success(instance) && |templateID| >= 8 && |instance.id| >= 8
    requires dir.addTags(k + f).Fail?
    ensures var done := Completed(dir, templateID, k, f);
            CreateTagged(remaining, k, templateID, req, dir) ==
            Growth(Pairs(done, templateID, req) + [Create(req), AddTags(TagInstance(instance.id, templateID))],
                   done + [instance], Fail(Api(dir.addTags(k + f).error)))
  {
    var done := Completed(dir, templateID, k, f);
    assert Completed(dir, templateID, k, (k + f) - k) == done;
    assert UpIteration(k + f, templateID, req, dir) ==
           Stopped([Create(req), AddTags(TagInstance(instance.id, templateID))], [instance], Api(dir.addTags(k + f).error));
    CreateTaggedStops(remaining, k, templateID, req, dir, k + f);
  }

  /** An id shorter than eight characters makes the name-tag slicing panic
      after the Create: the instance stays and no AddTags is sent for it. */
  lemma {:induction false} ShortIdPanics(remaining: nat, k: nat, templateID: string, req: CreateRequest, dir: Directory, f: nat,
                      instance: Instance)
    requires f < remaining
    requires AllIterationsOk(dir, templateID, k, f)
    requires dir.create(k + f) == Success(instance) && (|templateID| < 8 || |instance.id| < 8)
    ensures var done := Completed(dir, templateID, k, f);
            CreateTagged(remaining, k, templateID, req, dir) ==
            Growth(Pairs(done, templateID, req) + [Create(req)], done + [instance], Fail(IndexOutOfRange))
  {
    var done := Completed(dir, templateID, k, f);
    assert Completed(dir, templateID, k, (k + f) - k) == done;
    assert UpIteration(k + f, templateID, req, dir) == Stopped([Create(req)], [instance], IndexOutOfRange);
    CreateTaggedStops(remaining, k, templateID, req, dir, k + f);
  }

  /** Scale-up whose `stop`-th iteration is the first not to complete: the
      pairs of the completed iterations, then the stopping iteration's calls;
      the listed instances followed by every instance created so far; and the
      stopping iteration's fault. */
  lemma {:induction false} ScaleUpStops(sorted: seq<Instance>, expected: int, s: Settings, dir: Directory, stop: nat)
    requires expected > |sorted| && stop < expected - |sorted|
    requires AllIterationsOk(dir, s.templateID, 0, stop) && !IterationOk(dir, s.templateID, stop)
    ensures var done := Completed(dir, s.templateID, 0, stop);
            var step := UpIteration(stop, s.templateID, BuildCreateRequest(s), dir);
            var r := ScaleUp(sorted, expected, s, dir);
            && step.Stopped?
            && r.calls == Pairs(done, s.templateID, BuildCreateRequest(s)) + step.calls
            && r.fleet == sorted + (done + step.created)
            && r.outcome == Fail(step.fault)
  {
    LoopStopsFromFirst(expected - |sorted|, s.templateID, BuildCreateRequest(s), dir, stop);
  }

  /** `CreateTaggedStops` from the first iteration. */
  lemma {:induction false} LoopStopsFromFirst(remaining: nat, templateID: string, req: CreateRequest,
                                                dir: Directory, stop: nat)
    requires stop < remaining
    requires AllIterationsOk(dir, templateID, 0, stop) && !IterationOk(dir, templateID, stop)
    ensures var done := Completed(dir, templateID, 0, stop);
            var step := UpIteration(stop, templateID, req, dir);
            var g := CreateTagged(remaining, 0, templateID, req, dir);
            && step.Stopped?
            && g.calls == Pairs(done, templateID, req) + step.calls
            && g.created == done + step.created
            && g.outcome == Fail(step.fault)
  {
    CreateTaggedStops(remaining, 0, templateID, req, dir, stop);
  }

  // ---- counting mutating calls -----------------------------------------------

  /** The number of Create and Delete calls in a trace. */
  function Mutations(calls: seq<Call>): nat {
    if |calls| == 0 then 0
    else (if calls[0].Create? || calls[0].Delete? then 1 else 0) + Mutations(calls[1..])
  }

  lemma {:induction false} MutationsAppend(a: seq<Call>, b: seq<Call>)
    ensures Mutations(a + b) == Mutations(a) + Mutations(b)
    decreases |a|
  {
    if |a| == 0 {
      assert a + b == b;
    } else {
      assert (a + b)[0] == a[0] && (a + b)[1..] == a[1..] + b;
      MutationsAppend(a[1..], b);
    }
  }

  /** Each completed iteration makes one Create and one AddTags. */
  lemma {:induction false} MutationsOfPairs(created: seq<Instance>, templateID: string, req: CreateRequest)
    requires Taggable(created, templateID)
    ensures Mutations(Pairs(created, templateID, req)) == |created|
    decreases |created|
  {
    if |created| > 0 {
      var pair := [Create(req), AddTags(TagInstance(created[0].id, templateID))];
      MutationsOfPairs(created[1..], templateID, req);
      MutationsAppend(pair, Pairs(created[1..], templateID, req));
    }
  }

  /** A trace of deletes counts one mutation per call. */
  lemma {:induction false} MutationsOfDeletes(calls: seq<Call>)
    requires forall j :: 0 <= j < |calls| ==> calls[j].Delete?
    ensures Mutations(calls) == |calls|
    decreases |calls|
  {
    if |calls| > 0 {
      MutationsOfDeletes(calls[1..]);
    }
  }

  /** After the list call, the pass is the reconciliation of the sorted list. */
  lemma ListedPass(s: Settings, expected: int, dir: Directory)
    requires dir.list.Success?
    ensures var inner := Reconcile(SortNewestFirst(dir.list.value), expected, s, dir);
            MaintainInstanceCount(s, expected, dir) ==
            Run([List(ListFilter(s.groupName))] + inner.calls, inner.fleet, inner.outcome)
  {
  }

  /** A successful reconciliation to a non-negative count leaves exactly that
      many instances and makes exactly as many creates or deletes as the
      counts differ; at the count already, it makes no call at all. */
  lemma {:induction false} ReconcileConverges(sorted: seq<Instance>, expected: int, s: Settings, dir: Directory)
    requires expected >= 0 && Reconcile(sorted, expected, s, dir).outcome.Pass?
    ensures var r := Reconcile(sorted, expected, s, dir);
            && |r.fleet| == expected
            && Mutations(r.calls) == (if expected >= |sorted| then expected - |sorted| else |sorted| - expected)
            && (expected == |sorted| ==> r.calls == [])
  {
    var r := Reconcile(sorted, expected, s, dir);
    if expected < |sorted| {
      MutationsOfDeletes(r.calls);
    } else if expected > |sorted| {
      var n := expected - |sorted|;
      var g := CreateTagged(n, 0, s.templateID, BuildCreateRequest(s), dir);
      CreateTaggedCompletes(n, 0, s.templateID, BuildCreateRequest(s), dir);
      MutationsOfPairs(g.created, s.templateID, BuildCreateRequest(s));
    }
  }

  /** Convergence: after a successful pass on a listed group with a
      non-negative configured count, the group holds exactly that many
      instances, and the pass made exactly as many creates or deletes as the
      two counts differ; a group already at its count sees only the list call. */
  lemma {:induction false} Convergence(s: Settings, expected: int, dir: Directory)
    requires dir.list.Success? && expected >= 0
    requires MaintainInstanceCount(s, expected, dir).outcome.Pass?
    ensures var r := MaintainInstanceCount(s, expected, dir);
            var running := |dir.list.value|;
            && |r.fleet| == expected
            && Mutations(r.calls) == (if expected >= running then expected - running else running - expected)
            && (expected == running ==> r.calls == [List(ListFilter(s.groupName))])
  {
    var sorted := SortNewestFirst(dir.list.value);
    var inner := Reconcile(sorted, expected, s, dir);
    ListedPass(s, expected, dir);
    ReconcileConverges(sorted, expected, s, dir);
    MutationsAppend([List(ListFilter(s.groupName))], inner.calls);
    assert [List(ListFilter(s.groupName))] + [] == [List(ListFilter(s.groupName))];
  }

  // ---- worked examples -----------------------------------------------------

  /** Three instances created in three different seconds, sorted. */
  lemma {:induction false} SortExample(a: Instance, b: Instance, c: Instance)
    requires Unix(b.created) < Unix(a.created) < Unix(c.created)
    ensures SortNewestFirst([a, b, c]) == [c, a, b]
  {
    assert [a, b, c][1..] == [b, c];
    SortTwoExample(b, c);
    InsertMiddleExample(a, b, c);
  }

  lemma {:induction false} SortTwoExample(b: Instance, c: Instance)
    requires Older(b, c)
    ensures SortNewestFirst([b, c]) == [c, b]
  {
    assert [b, c][1..] == [c] && [c][1..] == [];
    assert SortNewestFirst([c]) == [c];
    assert Insert(b, [c]) == [c] + Insert(b, []);
  }

  lemma {:induction false} InsertMiddleExample(a: Instance, b: Instance, c: Instance)
    requires Older(b, c) && Older(a, c) && !Older(a, b)
    ensures NewestFirst([c, b]) && Insert(a, [c, b]) == [c, a, b]
  {
    NewestFirstPair(c, b);
    assert [c, b][1..] == [b];
    InsertFrontExample(a, b);
  }

  lemma {:induction false} NewestFirstPair(c: Instance, b: Instance)
    requires !Older(c, b)
    ensures NewestFirst([c, b])
  {
    var t := [c, b];
    forall i, j | 0 <= i < j < |t| ensures !Older(t[i], t[j]) {
      assert i == 0 && j == 1;
    }
  }

  lemma {:induction false} InsertFrontExample(a: Instance, b: Instance)
    requires !Older(a, b)
    ensures NewestFirst([b]) && Insert(a, [b]) == [a, b]
  {
    assert [b][0] == b;
  }

  /** Instances created at 200, 100 and 300 seconds, listed in that order, and
      a target of two: the one pass deletes the instance created at 100 and
      keeps the other two, newest first. */
  lemma {:induction false} OldestDeletedExample(s: Settings, dir: Directory, a: Instance, b: Instance, c: Instance)
    requires Unix(a.created) == 200 && Unix(b.created) == 100 && Unix(c.created) == 300
    requires dir.list == Success([a, b, c]) && dir.delete(0) == Pass
    ensures MaintainInstanceCount(s, 2, dir) == Run([List(ListFilter(s.groupName)), Delete(b.id)], [c, a], Pass)
  {
    SortExample(a, b, c);
    OldestDeletedFromSorted(s, dir, a, b, c);
  }

  /** The same pass, from the sorted list `[c, a, b]`. */
  lemma OldestDeletedFromSorted(s: Settings, dir: Directory, a: Instance, b: Instance, c: Instance)
    requires dir.list.Success? && SortNewestFirst(dir.list.value) == [c, a, b] && dir.delete(0) == Pass
    ensures MaintainInstanceCount(s, 2, dir) == Run([List(ListFilter(s.groupName)), Delete(b.id)], [c, a], Pass)
  {
    DeleteLastExample(s, dir, a, b, c);
    ListedPass(s, 2, dir);
    assert [List(ListFilter(s.groupName))] + [Delete(b.id)] == [List(ListFilter(s.groupName)), Delete(b.id)];
  }

  /** Reconciling `[c, a, b]` to two instances deletes `b`. */
  lemma {:induction false} DeleteLastExample(s: Settings, dir: Directory, a: Instance, b: Instance, c: Instance)
    requires dir.delete(0) == Pass
    ensures Reconcile([c, a, b], 2, s, dir) == Run([Delete(b.id)], [c, a], Pass)
  {
    assert Reconcile([c, a, b], 2, s, dir) == DeleteTail([c, a, b], 1, 0, dir);
    assert [c, a, b][..2] == [c, a];
    assert DeleteTail([c, a], 0, 1, dir) == Run([], [c, a], Pass);
  }

  /** An empty group to grow to `target` instances, at least two, where the
      second Create fails: one instance is created and named, the pass stops
      with the create error, and the calls are List, Create, AddTags, Create. */
  lemma {:induction false} FailFastOnCreateExample(s: Settings, dir: Directory, first: Instance, e: ApiError, target: int)
    requires dir.list == Success([]) && |s.templateID| >= 8 && target >= 2
    requires dir.create(0) == Success(first) && |first.id| >= 8 && dir.addTags(0) == Pass
    requires dir.create(1) == Failure(e)
    ensures var req := BuildCreateRequest(s);
            MaintainInstanceCount(s, target, dir) ==
            Run([List(ListFilter(s.groupName)), Create(req), AddTags(TagInstance(first.id, s.templateID)), Create(req)],
                [first], Fail(Api(e)))
  {
    var req := BuildCreateRequest(s);
    var calls := [Create(req), AddTags(TagInstance(first.id, s.templateID)), Create(req)];
    var list := List(ListFilter(s.groupName));
    assert Reconcile([], target, s, dir) == Run(calls, [first], Fail(Api(e))) by {
      EmptyGroupSecondCreateFails(s, dir, first, e, target);
    }
    assert MaintainInstanceCount(s, target, dir) == Run([list] + calls, [first], Fail(Api(e))) by {
      EmptyGroupPass(s, dir, target);
    }
    ListInFront(list, Create(req), AddTags(TagInstance(first.id, s.templateID)), Create(req));
  }

  /** The list call in front of three later calls. */
  lemma ListInFront(list: Call, a: Call, b: Call, c: Call)
    ensures [list] + [a, b, c] == [list, a, b, c]
  {
  }

  /** The pass on a group listed as empty is the reconciliation of `[]`. */
  lemma EmptyGroupPass(s: Settings, dir: Directory, target: int)
    requires dir.list == Success([])
    ensures var inner := Reconcile([], target, s, dir);
            MaintainInstanceCount(s, target, dir) == Run([List(ListFilter(s.groupName))] + inner.calls, inner.fleet, inner.outcome)
  {
    assert SortNewestFirst(dir.list.value) == [];
    ListedPass(s, target, dir);
  }

  /** Growing an empty group when the second Create fails. */
  lemma EmptyGroupSecondCreateFails(s: Settings, dir: Directory, first: Instance, e: ApiError, target: int)
    requires |s.templateID| >= 8 && target >= 2
    requires dir.create(0) == Success(first) && |first.id| >= 8 && dir.addTags(0) == Pass
    requires dir.create(1) == Failure(e)
    ensures var req := BuildCreateRequest(s);
            Reconcile([], target, s, dir) ==
            Run([Create(req), AddTags(TagInstance(first.id, s.templateID)), Create(req)], [first], Fail(Api(e)))
  {
    var req := BuildCreateRequest(s);
    var g := CreateTagged(target, 0, s.templateID, req, dir);
    assert g == Growth([Create(req), AddTags(TagInstance(first.id, s.templateID)), Create(req)], [first], Fail(Api(e))) by {
      SecondCreateFailsExample(target, s.templateID, req, dir, first, e);
    }
    EmptyGroupGrows(s, target, dir);
  }

  /** Growing an empty group is the scale-up loop alone. */
  lemma EmptyGroupGrows(s: Settings, target: int, dir: Directory)
    requires target > 0
    ensures var g := CreateTagged(target, 0, s.templateID, BuildCreateRequest(s), dir);
            Reconcile([], target, s, dir) == Run(g.calls, g.created, g.outcome)
  {
    assert forall created: seq<Instance> :: [] + created == created;
  }

  /** The scale-up loop for at least two instances whose second Create fails. */
  lemma {:induction false} SecondCreateFailsExample(remaining: nat, templateID: string, req: CreateRequest, dir: Directory,
                                                    first: Instance, e: ApiError)
    requires remaining >= 2 && |templateID| >= 8
    requires dir.create(0) == Success(first) && |first.id| >= 8 && dir.addTags(0) == Pass
    requires dir.create(1) == Failure(e)
    ensures CreateTagged(remaining, 0, templateID, req, dir) ==
            Growth([Create(req), AddTags(TagInstance(first.id, templateID)), Create(req)], [first], Fail(Api(e)))
  {
    assert AllIterationsOk(dir, templateID, 0, 1);
    CreateFailureStops(remaining, 0, templateID, req, dir, 1);
    var done := Completed(dir, templateID, 0, 1);
    assert done == [first];
    assert Pairs(done, templateID, req) == [Create(req), AddTags(TagInstance(first.id, templateID))];
  }
}

=== FILE: requests.dfy ===
/** The requests the reconciler sends to the Triton compute API: the list
    filter, the create request CreateInstance assembles, and the one-tag
    request of TagInstance with its derived name. */
module Requests {
  import opened Outcomes
  import opened Config

  /** `ListInstancesInput.Tags`: the tags an instance must carry to be listed. */
  function ListFilter(groupName: string): (filter: map<string, string>)
    ensures groupName == "" <==> |filter| == 0
    ensures groupName != "" ==> filter.Keys == {"tsg.name"} && filter["tsg.name"] == groupName
  {
    if groupName != "" then map["tsg.name" := groupName] else map[]
  }

  /** formulateInstanceNameTag: "tsg-", the first 8 characters of the template
      id, "-", the first 8 characters of the instance id. Go's `[:8]` panics on
      a shorter id, hence the precondition. */
  function NameTag(templateID: string, instanceID: string): (tag: string)
    requires |templateID| >= 8 && |instanceID| >= 8
    ensures |tag| == 21
  {
    "tsg-" + templateID[..8] + "-" + instanceID[..8]
  }

  /** Where the pieces of a name tag sit: "tsg-" at 0, the template prefix at
      4, "-" at 12 and the instance prefix at 13. */
  lemma {:induction false} NameTagLayout(templateID: string, instanceID: string)
    requires |templateID| >= 8 && |instanceID| >= 8
    ensures var tag := NameTag(templateID, instanceID);
            && tag[..4] == "tsg-" && tag[12] == '-'
            && tag[4..12] == templateID[..8] && tag[13..] == instanceID[..8]
  {
    var tag := NameTag(templateID, instanceID);
    assert tag == "tsg-" + templateID[..8] + "-" + instanceID[..8];
  }

  /** `AddTagsInput`: the instance to tag and the tags to add to it. */
  datatype TagRequest = TagRequest(id: string, tags: map<string, string>)

  /** The request TagInstance sends: exactly one tag, `name`, on the new instance. */
  function TagInstance(instanceID: string, templateID: string): (req: TagRequest)
    requires |templateID| >= 8 && |instanceID| >= 8
    ensures req.id == instanceID
    ensures req.tags.Keys == {"name"}
    ensures req.tags["name"] == NameTag(templateID, instanceID)
  {
    TagRequest(instanceID, map["name" := NameTag(templateID, instanceID)])
  }

  /** mergo.Merge(&dst, src) without the override option, on string maps: a
      key of `src` is copied only where `dst` lacks it or holds the empty
      string, so a non-empty value already in `dst` is never replaced. */
  function MergeKeep(dst: map<string, string>, src: map<string, string>): (r: map<string, string>)
    ensures r.Keys == dst.Keys + src.Keys
    ensures forall k :: k in dst && !(k in src && dst[k] == "") ==> r[k] == dst[k]
    ensures forall k :: k in src && (k !in dst || dst[k] == "") ==> r[k] == src[k]
  {
    map k | k in dst.Keys + src.Keys :: if k in src && (k !in dst || dst[k] == "") then src[k] else dst[k]
  }

  /** `CreateInstanceInput`; `None` is a field left unset. Tags are always set. */
  datatype CreateRequest = CreateRequest(
    firewallEnabled: bool,
    networks: Option<seq<string>>,
    affinity: Option<seq<string>>,
    tags: map<string, string>,
    metadata: Option<map<string, string>>,
    package: Option<string>,
    image: Option<string>)

  /** The tags CreateInstance sets before merging the configured ones. */
  function DefaultTags(templateID: string, groupName: string): (tags: map<string, string>)
    ensures "tsg.template" in tags && tags["tsg.template"] == templateID
    ensures tags.Keys == {"tsg.template"} + (if groupName != "" then {"tsg.name"} else {})
    ensures groupName != "" ==> tags["tsg.name"] == groupName
  {
    var tags := map["tsg.template" := templateID];
    if groupName != "" then tags["tsg.name" := groupName] else tags
  }

  /** The metadata CreateInstance sets before merging the configured entries. */
  function DefaultMetadata(userdata: string): (md: map<string, string>)
    ensures md.Keys == if userdata != "" then {"user-data"} else {}
    ensures userdata != "" ==> md["user-data"] == userdata
  {
    if userdata != "" then map["user-data" := userdata] else map[]
  }

  /** The keys of a map that may be nil. */
  function KeysOf(m: Option<map<string, string>>): set<string> {
    match m
    case None => {}
    case Some(m) => m.Keys
  }

  /** The tags of the create request: the template tag and, for a named
      group, the group tag, with the configured tags merged under them. */
  function RequestTags(templateID: string, groupName: string, configured: Option<map<string, string>>): (tags: map<string, string>)
    ensures tags.Keys == {"tsg.template"} + (if groupName != "" then {"tsg.name"} else {}) + KeysOf(configured)
    ensures templateID != "" || configured.None? || "tsg.template" !in configured.value ==> tags["tsg.template"] == templateID
    ensures groupName != "" ==> tags["tsg.name"] == groupName
    ensures forall k :: k in KeysOf(configured) && !(k == "tsg.template" && templateID != "")
                                                && !(k == "tsg.name" && groupName != "") ==>
              tags[k] == configured.value[k]
  {
    var defaults := DefaultTags(templateID, groupName);
    if configured.Some? then MergeKeep(defaults, configured.value) else defaults
  }

  /** The metadata of the create request: the user-data entry for non-empty
      userdata, with the configured metadata merged under it; unset when empty. */
  function RequestMetadata(userdata: string, configured: Option<map<string, string>>): (md: Option<map<string, string>>)
    ensures md.Some? <==> userdata != "" || KeysOf(configured) != {}
    ensures md.Some? ==>
              md.value.Keys == (if userdata != "" then {"user-data"} else {}) + KeysOf(configured)
    ensures userdata != "" ==> md.Some? && md.value["user-data"] == userdata
    ensures forall k :: k in KeysOf(configured) && !(k == "user-data" && userdata != "") ==>
              md.Some? && md.value[k] == configured.value[k]
  {
    var defaults := DefaultMetadata(userdata);
    var merged := if configured.Some? then MergeKeep(defaults, configured.value) else defaults;
    assert merged.Keys == defaults.Keys + KeysOf(configured);
    assert userdata != "" ==> "user-data" in merged;
    assert forall k :: k in KeysOf(configured) ==> k in merged;
    if |merged| > 0 then Some(merged) else None
  }

  /** CreateInstance's request assembly: defaults first, configured tags and
      metadata merged under them, every optional field unset when empty. */
  function BuildCreateRequest(s: Settings): (req: CreateRequest)
    ensures req.firewallEnabled == s.firewall
    ensures req.tags == RequestTags(s.templateID, s.groupName, s.tags)
    ensures req.metadata == RequestMetadata(s.userdata, s.metadata)
    ensures req.networks.Some? <==> s.networks.Some? && |s.networks.value| > 0
    ensures req.networks.Some? ==> req.networks == s.networks
    ensures req.affinity.Some? <==> s.affinity.Some? && |s.affinity.value| > 0
    ensures req.affinity.Some? ==> req.affinity == s.affinity
    ensures req.package.Some? <==> s.packageID != ""
    ensures req.package.Some? ==> req.package.value == s.packageID
    ensures req.image.Some? <==> s.imageID != ""
    ensures req.image.Some? ==> req.image.value == s.imageID
  {
    CreateRequest(
      s.firewall,
      if s.networks.Some? && |s.networks.value| > 0 then s.networks else None,
      if s.affinity.Some? && |s.affinity.value| > 0 then s.affinity else None,
      RequestTags(s.templateID, s.groupName, s.tags),
      RequestMetadata(s.userdata, s.metadata),
      if s.packageID != "" then Some(s.packageID) else None,
      if s.imageID != "" then Some(s.imageID) else None)
  }

  // ---- properties ----------------------------------------------------------

  /** Merging the same map twice changes nothing more. */
  lemma {:induction false} MergeKeepIdempotent(dst: map<string, string>, src: map<string, string>)
    ensures MergeKeep(MergeKeep(dst, src), src) == MergeKeep(dst, src)
  {
    var once := MergeKeep(dst, src);
    var twice := MergeKeep(once, src);
    forall k | k in twice ensures twice[k] == once[k] {
      if k in src && once[k] == "" {
        assert k !in dst || dst[k] == "" || src[k] == "";
      }
    }
  }

  /** A configured tag cannot override the group tag: with group "g" and a
      configured `tsg.name=override`, the request still carries "g". */
  lemma GroupTagNotOverridden(s: Settings)
    requires s.groupName == "g"
    requires s.tags == Some(map["tsg.name" := "override"])
    ensures BuildCreateRequest(s).tags["tsg.name"] == "g"
  {
  }

  /** Every instance the pass creates carries the tags the next pass lists
      by, so it is counted as part of the group from then on. */
  lemma CreatedInstancesMatchFilter(s: Settings)
    ensures forall k :: k in ListFilter(s.groupName) ==>
              k in BuildCreateRequest(s).tags && BuildCreateRequest(s).tags[k] == ListFilter(s.groupName)[k]
  {
  }

  /** Two name tags are equal exactly when both ids agree on their first
      8 characters: the tag keeps nothing else of either id. */
  lemma {:induction false} NameTagDeterminedByPrefixes(t1: string, i1: string, t2: string, i2: string)
    requires |t1| >= 8 && |i1| >= 8 && |t2| >= 8 && |i2| >= 8
    ensures NameTag(t1, i1) == NameTag(t2, i2) <==> t1[..8] == t2[..8] && i1[..8] == i2[..8]
  {
    NameTagLayout(t1, i1);
    NameTagLayout(t2, i2);
    if NameTag(t1, i1) == NameTag(t2, i2) {
      assert NameTag(t1, i1)[4..12] == NameTag(t2, i2)[4..12];
      assert NameTag(t1, i1)[13..] == NameTag(t2, i2)[13..];
    }
  }

  /** The name tag of template "abcdefgh1234" and instance "zzzzzzzz9999". */
  lemma NameTagExample()
    ensures NameTag("abcdefgh1234", "zzzzzzzz9999") == "tsg-abcdefgh-zzzzzzzz"
  {
  }
}

=== FILE: scale.dfy ===
/** One reconciliation pass of MaintainInstanceCount: list the group's
    instances newest-first, then delete from the oldest end or create and tag
    new instances until the count matches, stopping at the first failure. */
module Scale {
  import opened Outcomes
  import opened Config
  import opened Instances
  import opened Requests

  /** An error returned by the Triton compute API. */
  datatype ApiError = ApiError(message: string)

  /** The Triton compute API as one pass sees it: the reply to the list call,
      and the reply to the `k`-th Create, AddTags and Delete call (counting from
      0), fixed in advance. Iteration `k` of either loop uses reply `k`. */
  datatype Directory = Directory(
    list: Result<seq<Instance>, ApiError>,
    create: nat -> Result<Instance, ApiError>,
    addTags: nat -> Outcome<ApiError>,
    delete: nat -> Outcome<ApiError>)

  /** A call the pass makes on the compute API. */
  datatype Call =
    | List(filter: map<string, string>)
    | Create(spec: CreateRequest)
    | AddTags(input: TagRequest)
    | Delete(id: string)

  /** Why a pass stopped: an API error, returned unchanged; a Go runtime
      panic from slicing or indexing out of range; or a configuration value
      CreateInstance could not decode. */
  datatype Fault = Api(cause: ApiError) | IndexOutOfRange | BadConfig(problem: ConfigError)

  /** The calls a pass made, in order; the instances of the group once it
      stops, assuming a failed call changed nothing (empty after a failed
      list call, since the pass then knows of no instance); and its error,
      if any. */
  datatype Run = Run(calls: seq<Call>, fleet: seq<Instance>, outcome: Outcome<Fault>)

  // ---- scale down ----------------------------------------------------------

  /** The scale-down loop: `remaining` times, delete the last instance of the
      newest-first list and drop it, using delete replies from `k` on. An
      empty list panics on `instances[len(instances)-1]`. */
  function DeleteTail(fleet: seq<Instance>, remaining: nat, k: nat, dir: Directory): (r: Run)
    ensures |r.calls| <= remaining && |r.calls| <= |fleet|
    ensures forall j :: 0 <= j < |r.calls| ==> r.calls[j] == Delete(fleet[|fleet| - 1 - j].id)
    ensures |r.fleet| <= |fleet| && r.fleet == fleet[..|r.fleet|]
    ensures |fleet| - |r.fleet| <= |r.calls| <= |fleet| - |r.fleet| + 1
    ensures r.outcome.Pass? <==> remaining <= |fleet| && forall j :: k <= j < k + remaining ==> dir.delete(j).Pass?
    ensures r.outcome.Pass? ==> |r.calls| == remaining && |r.fleet| == |fleet| - remaining
    decreases remaining
  {
    if remaining == 0 then Run([], fleet, Pass)
    else if |fleet| == 0 then Run([], fleet, Fail(IndexOutOfRange))
    else
      var victim := fleet[|fleet| - 1];
      match dir.delete(k)
      case Fail(e) => Run([Delete(victim.id)], fleet, Fail(Api(e)))
      case Pass =>
        var rest := DeleteTail(fleet[..|fleet| - 1], remaining - 1, k + 1, dir);
        var calls := [Delete(victim.id)] + rest.calls;
        assert forall j :: 1 <= j < |calls| ==> calls[j] == rest.calls[j - 1];
        assert forall i :: 0 <= i < |fleet| - 1 ==> fleet[..|fleet| - 1][i] == fleet[i];
        assert rest.fleet == fleet[..|rest.fleet|];
        Run(calls, rest.fleet, rest.outcome)
  }

  // ---- scale up ------------------------------------------------------------

  /** Iteration `j` of the scale-up loop completes: the instance is created,
      both ids are long enough for the name tag, and the tag is added. */
  ghost predicate IterationOk(dir: Directory, templateID: string, j: nat) {
    && dir.create(j).Success?
    && |templateID| >= 8 && |dir.create(j).value.id| >= 8
    && dir.addTags(j).Pass?
  }

  /** Both ids are long enough for the name tag of every instance in `created`. */
  ghost predicate Taggable(created: seq<Instance>, templateID: string) {
    forall i :: 0 <= i < |created| ==> |templateID| >= 8 && |created[i].id| >= 8
  }

  /** The calls of completed scale-up iterations: for each created instance,
      the Create that returned it and the AddTags that named it. */
  function Pairs(created: seq<Instance>, templateID: string, req: CreateRequest): (calls: seq<Call>)
    requires Taggable(created, templateID)
    ensures |calls| == 2 * |created|
    decreases |created|
  {
    if |created| == 0 then []
    else [Create(req), AddTags(TagInstance(created[0].id, templateID))] + Pairs(created[1..], templateID, req)
  }

  /** The instances `created` are what the Create calls from the `k`-th on returned. */
  ghost predicate CreatedBy(created: seq<Instance>, k: nat, dir: Directory) {
    forall j :: 0 <= j < |created| ==> dir.create(k + j) == Success(created[j])
  }

  /** One more named instance in front adds its Create and AddTags pair in front. */
  lemma {:induction false} PairsCons(instance: Instance, later: seq<Instance>, templateID: string, req: CreateRequest)
    requires |templateID| >= 8 && |instance.id| >= 8 && Taggable(later, templateID)
    ensures Taggable([instance] + later, templateID)
    ensures Pairs([instance] + later, templateID, req) ==
            [Create(req), AddTags(TagInstance(instance.id, templateID))] + Pairs(later, templateID, req)
  {
    var created := [instance] + later;
    assert created[1..] == later;
    assert forall j :: 1 <= j < |created| ==> created[j] == later[j - 1];
  }

  /** The instance of the `k`-th Create in front of those of the later ones. */
  lemma {:induction false} CreatedByCons(instance: Instance, later: seq<Instance>, k: nat, dir: Directory)
    requires dir.create(k) == Success(instance) && CreatedBy(later, k + 1, dir)
    ensures CreatedBy([instance] + later, k, dir)
  {
    var created := [instance] + later;
    assert forall j :: 1 <= j < |created| ==> created[j] == later[j - 1];
  }

  /** Every iteration from the `k`-th, `n` of them, completes. */
  ghost predicate AllIterationsOk(dir: Directory, templateID: string, k: nat, n: nat) {
    forall j :: k <= j < k + n ==> IterationOk(dir, templateID, j)
  }

  /** How one scale-up iteration ended: the new instance was created and
      named, or the loop stopped after `calls`, having created `created`. */
  datatype Step = Tagged(instance: Instance) | Stopped(calls: seq<Call>, created: seq<Instance>, fault: Fault)

  /** One iteration of the scale-up loop, using the `k`-th Create and AddTags
      replies: create from `req`; on success derive the name tag (a panic for
      a short id) and add it. A created instance stays even when tagging fails. */
  function UpIteration(k: nat, templateID: string, req: CreateRequest, dir: Directory): (step: Step)
    ensures step.Tagged? <==> IterationOk(dir, templateID, k)
    ensures step.Tagged? ==> dir.create(k) == Success(step.instance)
    ensures step.Stopped? ==> |step.created| <= 1 && CreatedBy(step.created, k, dir)
    ensures dir.create(k).Failure? ==>
              step == Stopped([Create(req)], [], Api(dir.create(k).error))
    ensures dir.create(k).Success? && step.Stopped? ==>
              step.created == [dir.create(k).value] && |step.calls| >= 1 && step.calls[0] == Create(req)
    ensures dir.create(k).Success? && (|templateID| < 8 || |dir.create(k).value.id| < 8) ==>
              step.Stopped? && step.calls == [Create(req)] && step.fault == IndexOutOfRange
    ensures dir.create(k).Success? && |templateID| >= 8 && |dir.create(k).value.id| >= 8 && dir.addTags(k).Fail? ==>
              step.Stopped? && step.fault == Api(dir.addTags(k).error) &&
              step.calls == [Create(req), AddTags(TagInstance(dir.create(k).value.id, templateID))]
  {
    match dir.create(k)
    case Failure(e) => Stopped([Create(req)], [], Api(e))
    case Success(instance) =>
      if |templateID| < 8 || |instance.id| < 8 then
        Stopped([Create(req)], [instance], IndexOutOfRange)
      else
        match dir.addTags(k)
        case Fail(e) =>
          Stopped([Create(req), AddTags(TagInstance(instance.id, templateID))], [instance], Api(e))
        case Pass => Tagged(instance)
  }

  /** What the scale-up loop did: its calls, the instances it created (kept
      even when the pass then stops), and its error, if any. */
  datatype Growth = Growth(calls: seq<Call>, created: seq<Instance>, outcome: Outcome<Fault>)

  /** The iterations from the `k`-th on all complete exactly when the `k`-th
      does and so do those after it. */
  lemma AllIterationsOkCons(dir: Directory, templateID: string, k: nat, n: nat)
    requires n > 0
    ensures AllIterationsOk(dir, templateID, k, n) <==>
            IterationOk(dir, templateID, k) && AllIterationsOk(dir, templateID, k + 1, n - 1)
  {
  }

  /** The scale-up loop: `remaining` times, create an instance from `req`,
      derive its name tag and add it, using replies from `k` on; stop at the
      first failure without undoing anything. */
  function CreateTagged(remaining: nat, k: nat, templateID: string, req: CreateRequest, dir: Directory): (r: Growth)
    ensures |r.created| <= remaining && CreatedBy(r.created, k, dir)
    ensures r.outcome.Pass? ==> |r.created| == remaining && |r.calls| == 2 * remaining
    ensures r.outcome.Pass? <==> AllIterationsOk(dir, templateID, k, remaining)
    decreases remaining
  {
    if remaining == 0 then Growth([], [], Pass)
    else
      AllIterationsOkCons(dir, templateID, k, remaining);
      match UpIteration(k, templateID, req, dir)
      case Stopped(calls, created, fault) => Growth(calls, created, Fail(fault))
      case Tagged(instance) =>
        var rest := CreateTagged(remaining - 1, k + 1, templateID, req, dir);
        CreatedByCons(instance, rest.created, k, dir);
        Growth([Create(req), AddTags(TagInstance(instance.id, templateID))] + rest.calls,
               [instance] + rest.created, rest.outcome)
  }

  // ---- the pass ------------------------------------------------------------

  /** The branch `scaleCount < 0`: delete `running - expected` instances from
      the oldest end of the newest-first list. */
  function ScaleDown(sorted: seq<Instance>, expected: int, dir: Directory): (r: Run)
    requires expected < |sorted|
    ensures |r.calls| <= |sorted|
    ensures forall j :: 0 <= j < |r.calls| ==> r.calls[j] == Delete(sorted[|sorted| - 1 - j].id)
    ensures |r.fleet| <= |sorted| && r.fleet == sorted[..|r.fleet|]
    ensures |sorted| - |r.fleet| <= |r.calls| <= |sorted| - |r.fleet| + 1
    ensures r.outcome.Pass? <==> expected >= 0 && forall j :: 0 <= j < |sorted| - expected ==> dir.delete(j).Pass?
    ensures r.outcome.Pass? ==> |r.calls| == |sorted| - expected && |r.fleet| == expected
  {
    DeleteTail(sorted, |sorted| - expected, 0, dir)
  }

  /** The branch `scaleCount > 0`: create and tag `expected - running` instances. */
  function ScaleUp(sorted: seq<Instance>, expected: int, s: Settings, dir: Directory): (r: Run)
    requires expected > |sorted|
    ensures |r.fleet| >= |sorted| && r.fleet[..|sorted|] == sorted
    ensures r.outcome.Pass? <==> AllIterationsOk(dir, s.templateID, 0, expected - |sorted|)
    ensures r.outcome.Pass? ==> |r.calls| == 2 * (expected - |sorted|) && |r.fleet| == expected
  {
    var g := CreateTagged(expected - |sorted|, 0, s.templateID, BuildCreateRequest(s), dir);
    assert (sorted + g.created)[..|sorted|] == sorted && (sorted + g.created)[|sorted|..] == g.created;
    Run(g.calls, sorted + g.created, g.outcome)
  }

  /** MaintainInstanceCount after the list call, on the newest-first list:
      compare the configured count with the running count and delete, create
      or do nothing. */
  function Reconcile(sorted: seq<Instance>, expected: int, s: Settings, dir: Directory): (r: Run)
    ensures expected == |sorted| ==> r == Run([], sorted, Pass)
    ensures expected < |sorted| ==> r == ScaleDown(sorted, expected, dir)
    ensures expected > |sorted| ==> r == ScaleUp(sorted, expected, s, dir)
    ensures r.outcome.Pass? && expected >= 0 ==> |r.fleet| == expected
  {
    var scaleCount := expected - |sorted|;
    if scaleCount < 0 then ScaleDown(sorted, expected, dir)
    else if scaleCount > 0 then ScaleUp(sorted, expected, s, dir)
    else Run([], sorted, Pass)
  }

  /** MaintainInstanceCount: list the group (filtered by its name when it has
      one), sort the list newest-first and reconcile; a list error ends the
      pass with no other call. */
  function MaintainInstanceCount(s: Settings, expected: int, dir: Directory): (r: Run)
    ensures |r.calls| >= 1 && r.calls[0] == List(ListFilter(s.groupName))
    ensures dir.list.Failure? ==> r.calls == [List(ListFilter(s.groupName))] && r.outcome == Fail(Api(dir.list.error))
    ensures dir.list.Success? && expected == |dir.list.value| ==> |r.calls| == 1 && r.outcome.Pass?
    ensures dir.list.Success? && r.outcome.Pass? && expected >= 0 ==> |r.fleet| == expected
  {
    var list := List(ListFilter(s.groupName));
    match dir.list
    case Failure(e) => Run([list], [], Fail(Api(e)))
    case Success(found) =>
      var r := Reconcile(SortNewestFirst(found), expected, s, dir);
      Run([list] + r.calls, r.fleet, r.outcome)
  }

  /** The pass from the raw configuration. CreateInstance is where the
      configured userdata and metadata are decoded, so a decoding error can
      only stop a pass that has to create instances, and then does so before
      its first Create; any other pass does not depend on them. */
  function ScaleGroup(raw: RawConfig, decode: Decoder, dir: Directory): (r: Run)
    requires raw.tags.Some? ==> AllEntries(raw.tags.value)
    requires raw.metadata.Some? ==> MetadataEntries(raw.metadata.value, decode)
    ensures Resolve(raw, decode).Success? ==> r == MaintainInstanceCount(Resolve(raw, decode).value, raw.count, dir)
    ensures Resolve(raw, decode).Failure? && dir.list.Success? && raw.count > |dir.list.value| ==>
              && r.calls == [List(ListFilter(raw.groupName))]
              && r.outcome == Fail(BadConfig(Resolve(raw, decode).error))
    ensures !(dir.list.Success? && raw.count > |dir.list.value|) ==>
              forall s: Settings :: s.groupName == raw.groupName ==> r == MaintainInstanceCount(s, raw.count, dir)
  {
    var list := List(ListFilter(raw.groupName));
    match Resolve(raw, decode)
    case Success(s) => MaintainInstanceCount(s, raw.count, dir)
    case Failure(e) =>
      match dir.list
      case Failure(le) => Run([list], [], Fail(Api(le)))
      case Success(found) =>
        var sorted := SortNewestFirst(found);
        if raw.count > |sorted| then Run([list], sorted, Fail(BadConfig(e)))
        else
          var down := if raw.count < |sorted| then ScaleDown(sorted, raw.count, dir) else Run([], sorted, Pass);
          Run([list] + down.calls, down.fleet, down.outcome)
  }
}

=== FILE: strings.dfy ===
/** The one string operation the configuration parsing relies on: Go's
    `strings.Split` with a one-character separator. */
module Strings {

  /** The pieces glued back together with `sep` between neighbours
      (Go's `strings.Join`); the inverse of `Split`. */
  function Join(parts: seq<string>, sep: char): string
    requires |parts| >= 1
    decreases |parts|
  {
    if |parts| == 1 then parts[0] else parts[0] + [sep] + Join(parts[1..], sep)
  }

  /** `strings.Split(s, string(sep))`: the maximal runs of `s` between
      occurrences of `sep`. The empty string yields one empty piece. */
  function Split(s: string, sep: char): (parts: seq<string>)
    ensures |parts| >= 1
    ensures forall i :: 0 <= i < |parts| ==> sep !in parts[i]
    ensures Join(parts, sep) == s
    decreases |s|
  {
    if |s| == 0 then [""]
    else
      var rest := Split(s[1..], sep);
      if s[0] == sep then
        assert [s[0]] + Join(rest, sep) == s;
        [""] + rest
      else
        var parts := [[s[0]] + rest[0]] + rest[1..];
        assert parts[1..] == rest[1..];
        assert |rest| > 1 ==> Join(rest, sep) == rest[0] + [sep] + Join(rest[1..], sep);
        assert Join(parts, sep) == [s[0]] + Join(rest, sep);
        assert [s[0]] + s[1..] == s;
        parts
  }

  /** A piece free of `sep` followed by `sep` splits off as the first piece. */
  lemma {:induction false} SplitAfterPiece(p: string, sep: char, t: string)
    requires sep !in p
    ensures Split(p + [sep] + t, sep) == [p] + Split(t, sep)
    decreases |p|
  {
    if |p| == 0 {
      assert p + [sep] + t == [sep] + t;
      assert ([sep] + t)[1..] == t;
    } else {
      var s := p + [sep] + t;
      assert s[0] == p[0] && s[1..] == p[1..] + [sep] + t;
      SplitAfterPiece(p[1..], sep, t);
      assert [p[0]] + p[1..] == p;
    }
  }

  /** A string free of `sep` is a single piece. */
  lemma {:induction false} SplitWithoutSeparator(p: string, sep: char)
    requires sep !in p
    ensures Split(p, sep) == [p]
    decreases |p|
  {
    if |p| > 0 {
      SplitWithoutSeparator(p[1..], sep);
      assert [p[0]] + p[1..] == p;
    }
  }

  /** Round trip: splitting a join of separator-free pieces gives the pieces back. */
  lemma {:induction false} SplitJoin(parts: seq<string>, sep: char)
    requires |parts| >= 1
    requires forall i :: 0 <= i < |parts| ==> sep !in parts[i]
    ensures Split(Join(parts, sep), sep) == parts
    decreases |parts|
  {
    if |parts| == 1 {
      SplitWithoutSeparator(parts[0], sep);
    } else {
      SplitJoin(parts[1..], sep);
      SplitAfterPiece(parts[0], sep, Join(parts[1..], sep));
      assert [parts[0]] + parts[1..] == parts;
    }
  }
}
